=== FILE: README.md ===
# Parallel speech-to-text translator: a verified model of its core logic

The program has two Tk applications.

- **The video application** (`VideoToText.py`) does the following:
  - extracts a video's audio track and cuts it into fixed-length chunks (`chunk_audio`);
  - recognises every chunk on a worker pool (`recognize_audio`);
  - appends each chunk's result to the result pane as it completes, and reports completion when the done counter reaches the total (`append_result`);
  - translates the pane's text into a chosen language (`translate_text`, `_perform_translation`).
- **The live application** (`SpeechToText.py`) does the following:
  - listens to the microphone in English or Urdu (`toggle_language`, `start_listening`, `stop_listening`);
  - recognises each utterance with up to three attempts, translates it into the other language, and formats a two-line result (`process_audio`);
  - shows that result line by line in a styled pane (`smooth_insert`).

This Dafny project models that logic as pure functions over immutable values. The speech recogniser, the translator, the language table, the clock and the file system do not appear as code. They become parameters or outcome datatypes:

- `Recognition` and `Attempt` for what one recogniser call does, and `RetryOutcome` for how the live application's retry loop ends;
- `Outcome` for what one translation does, shared by both applications;
- a `Result` holding a language table or the error of fetching it;
- opaque time-stamp strings.

The worker pool is modelled sequentially: chunks complete one at a time, in any order.

Modules, one per file:

| file | module | models |
|---|---|---|
| `wrappers.dfy` | `Wrappers` | `Option` and `Result` |
| `text.dfy` | `Text` | Python's `in`, `find`, `split`, `join`, `strip` and `lower` on `str` |
| `numerals.dfy` | `Numerals` | `str(n)` for a non-negative `int`, and `int(text)` in base 10 |
| `chunker.dfy` | `Chunker` | the chunk-size setting, `chunk_audio`'s intervals and file names, and which audio each exported file holds |
| `job.dfy` | `Job` | the start of a job, one chunk's completion, and runs of completions |
| `translation.dfy` | `Translation` | the translate guards, the language-code fallback, and the translate button and pane |
| `live.dfy` | `Live` | the language toggle and codes, the retry loop, the result format, `process_audio`, and the listening flag |
| `display.dfy` | `Display` | `smooth_insert`: splitting into lines, skipping empty ones, and styling each by its label |

Some behaviour of the code that is easy to miss:

- **Pane order.** Chunk results reach the result pane in completion order, as `"Chunk i Result:\n" + text + "\n\n"` entries. They are never reassembled in index order. So the translation input is the stripped pane text, headers included (`Job.RunEffect`, `Translation.TranslateRequest`).
- **Translation failure.** A failed translation appends `"Error during translation: …"` to the translation pane. It keeps `translated_text` and the pane's earlier text (`Translation.Finish`).
- **Chunk files.** Chunk files are named after the whole second a chunk starts in. With chunks shorter than a second, a later chunk overwrites an earlier chunk's file before any recognition runs (`Chunker.NamesCollideBelowOneSecond`, `Chunker.OverwrittenChunkFile`).
- **Negative chunk size.** A negative chunk size gives an empty `range`, so there are zero chunks and completion is never reported. A zero chunk size makes `range` raise, and the job fails (`Chunker.ChunkAudio`, `Job.StartJob`).

## Model

| member | source | states |
|---|---|---|
| Text.Find | SpeechToText.py:32-35 | `sep in s` holds exactly when a first occurrence exists, and the index found is an occurrence with none before it |
| Text.Split | SpeechToText.py:27 | `s.split(sep)`: at least one piece; exactly one piece iff `sep` does not occur; no piece contains `sep`; the first piece ends at the first occurrence; joining the pieces with `sep` gives back `s` |
| Text.SplitJoin | SpeechToText.py:27 | splitting at a character the lines do not contain undoes joining them with it |
| Text.Strip | VideoToText.py:442 | `strip()` returns the middle slice of the text, with only whitespace removed on either side; it is empty iff the text is all whitespace, and otherwise starts and ends with a non-space |
| Text.StripIgnoresPadding | VideoToText.py:442 | whitespace added on either side of a text does not change what `strip()` returns |
| Text.LowerIsLower | VideoToText.py:465 | a lower-cased name has no upper-case letter, and lower-casing it again changes nothing |
| Numerals.Decimal | VideoToText.py:406 | the rendering of `n` is a non-empty digit string with no leading zero (other than "0" itself) that denotes `n` |
| Numerals.DecimalInjective | VideoToText.py:406 | distinct numbers render as distinct numerals |
| Numerals.ParseIntDecimal | VideoToText.py:386 | `int()` reads a rendered numeral of at most 4300 digits back as its value, unsigned or with a `-` or `+` sign, and refuses a longer one (CPython's default `int_max_str_digits`) |
| Numerals.ParseIntAccepts | VideoToText.py:386 | the converse: any text `int()` reads is skipped whitespace, an optional `-` or `+`, a digit body (single underscores between digits) of at most 4300 digits, and skipped whitespace, and its value is the body's, negated after `-` |
| Numerals.ParseIntReads | VideoToText.py:386 | the other direction: `int()` reads every text of that shape, leading zeros and underscores included ("007", " +5_000\n"), as the body's value, negated after `-` |
| Numerals.ParseIntRejects | VideoToText.py:386 | a text `int()` reads holds only skipped whitespace, digits, signs and underscores, so "5000ms" or "5.5" is refused |
| Numerals.ParseIntWhitespace | VideoToText.py:386 | `int()` ignores surrounding whitespace of the kind it skips, rejects text that is only whitespace, and rejects a separator placed before the numeral |
| Chunker.ChunkSizeSetting | VideoToText.py:386 | an empty setting field gives 5000 ms; a numeral of at most 4300 digits, signed or not, with or without whitespace that `int()` skips, gives its value, and a longer one is rejected; a non-empty blank field, or a separator before the numeral, is rejected |
| Chunker.SettingAccepts | VideoToText.py:386 | the converse: every accepted non-empty field is padding, an optional sign and a digit body within the limit, and the chunk size is that body's value with its sign |
| Chunker.SettingReads | VideoToText.py:386 | every field of that shape is accepted, leading zeros and underscores included ("05000" gives 5000 ms), with the body's signed value as the chunk size |
| Chunker.SettingRejects | VideoToText.py:386 | a field with any character other than skipped whitespace, a digit, a sign or an underscore ("5000ms") is rejected with a setting error |
| Chunker.ChunksFrom | VideoToText.py:403-408 | the loop from `start` yields no chunk iff `start >= len`; the i-th chunk starts at `start + i*d`; the count is the least one that reaches `len` |
| Chunker.ChunkAudio | VideoToText.py:400-409 | a zero size fails as `range` does; a negative size gives no chunks; a positive size gives ceil(len/d) chunks that tile the track: first at 0, last ending at `len`, back to back, each non-empty and at most `d` long, all but the last exactly `d` |
| Chunker.Coverage | VideoToText.py:403-405 | every millisecond of the track lies in the chunk with index `t / d`, and in no other |
| Chunker.FileNameInjective | VideoToText.py:406 | two chunk file names are equal exactly when their start offsets lie in the same second |
| Chunker.NamesDistinct | VideoToText.py:403-406 | with chunks of at least 1000 ms, no two chunks share a file name |
| Chunker.NamesCollideBelowOneSecond | VideoToText.py:403-406 | with chunks under 1000 ms and a track longer than one chunk, the first two chunks share `chunk_0.wav` |
| Chunker.Exported | VideoToText.py:406-407 | after all exports, every chunk's name is a file, and every file belongs to some chunk |
| Chunker.ExportedDistinct | VideoToText.py:406-407 | when names are distinct, each file holds the interval of its own chunk |
| Chunker.ChunkFilesHoldOwnAudio | VideoToText.py:403-408 | with chunks of at least 1000 ms, each chunk's file holds that chunk's audio when it is read back |
| Chunker.OverwrittenChunkFile | VideoToText.py:403-408 | with chunks under 1000 ms and a track of two chunks, both share one file, which ends up holding the second chunk's audio |
| Job.PlaceholderRoundTrip | VideoToText.py:416-422 | each failed recognition maps to a placeholder from which the kind of failure and its message can be read back, so the three placeholders never collide and no failure aborts the job |
| Job.FinishChunk | VideoToText.py:424-434 | one completion adds exactly 1 to the done counter, sets only `translations[index]` (to the chunk's text), appends that chunk's entry to the pane, and reports completion iff the counters are then equal |
| Job.StartJob | VideoToText.py:355-398 | every start resets the done counter and the results and keeps the completion count; a failed extraction fails the job with its message, one `Error: …` line in the cleared pane and the old total; after a successful extraction the job goes on with the size read from the field, starting from a cleared pane |
| Job.StartChunks | VideoToText.py:386-398 | the job starts iff the size was read and is non-zero; a started job's chunks are exactly those `chunk_audio` gives for the size, and its total is their number; they tile the track for a positive size and are none for a negative one; a rejected setting or a zero size fails the job with that cause, one `Error: …` line in the pane and the old total |
| Job.DefaultJob | VideoToText.py:386-388 | an empty setting field gives ceil(len/5000) chunks of 5000 ms |
| Job.RunEffect | VideoToText.py:424-434 | after any run of completions, the counter grows by the run's length; exactly the finished indices gain a result, each holding its own chunk's text; the pane lists the entries in completion order; completion is reported once if the counter passes the total |
| Job.JobCompletes | VideoToText.py:373-433 | a started job whose N chunks each complete once, in any order, ends with the done count equal to the total and results for exactly 0..N-1, each its own chunk's text; completion is reported exactly once, and never when N is 0 |
| Job.CompleteOnlyAtEnd | VideoToText.py:433-434 | after a proper prefix of the completions the job is not complete, and no completion has been reported |
| Translation.TranslateRequest | VideoToText.py:436-444 | nothing is translated iff the language is "Select language" or the pane is only whitespace; otherwise the request carries the chosen language and the stripped pane text, which is non-empty |
| Translation.RequestIgnoresPadding | VideoToText.py:442 | whitespace around the pane text does not change the request |
| Translation.LanguageCode | VideoToText.py:462-466 | the code is the table's entry for the lower-cased name, or the lower-cased name itself when the table has none |
| Translation.LanguageCodeCase | VideoToText.py:462-466 | the lookup ignores the case of the name, and a fallback code is lower case and as long as the name |
| Translation.Click | VideoToText.py:436-453 | a disabled button, or a guarded-out request, changes nothing; otherwise the button is disabled and the request runs, with the last translation and the pane kept |
| Translation.Finish | VideoToText.py:460-487 | on success the translation replaces both `translated_text` and the pane; on a failed table fetch or translation, `Error during translation: ` and the failure's message are appended to the pane and `translated_text` is kept; the button is enabled again either way |
| Translation.ClearTranslation | VideoToText.py:357-359 | starting a transcription empties the translation pane and `translated_text` and leaves the button alone |
| Translation.OneTranslationAtATime | VideoToText.py:446-487 | the button is disabled exactly while a translation runs; a click during a translation changes nothing |
| Live.Toggle | SpeechToText.py:206-209 | the input is always English or Urdu, and Urdu exactly when it was English |
| Live.ToggleTwice | SpeechToText.py:207-209 | toggling twice restores English or Urdu; any other starting value settles on Urdu |
| Live.ToggleAlternates | SpeechToText.py:206-209 | from English, n toggles give English for even n and Urdu for odd n |
| Live.ToggleLabels | SpeechToText.py:210-214 | after a toggle, the label names the new language, and the button offers exactly the language the next toggle will choose |
| Live.CodesFollowLanguage | SpeechToText.py:253-271 | the source code is the input language's two-letter prefix and the target is the other language's; they always differ; a toggle swaps them |
| Live.RetryFrom | SpeechToText.py:256-265 | at most three attempts; only not-understood attempts are retried; the loop ends at the first success or other error, which the result reports together with the attempt that caused it; giving up means three not-understood attempts |
| Live.RetryBound | SpeechToText.py:256-265 | recognition gives up iff all three attempts were not understood, and succeeds iff some attempt among the first three is heard after only not-understood ones |
| Live.FormatTwoLines | SpeechToText.py:274-280 | a formatted result is exactly two newline-terminated lines with the same time stamp, labelled with two different languages |
| Live.ProcessAudio | SpeechToText.py:251-289 | the history grows by one entry, the formatted result, iff a non-empty text was recognised and translated; that same text is then shown and its translation spoken; giving up or an empty recognition changes nothing; a request error shows `API Error: …`, and any other failure, of recognition or translation, shows `Error: …`, with nothing else changed |
| Live.StartListening | SpeechToText.py:222-227 | after Start the flag is on, and a listener thread is started iff it was off |
| Live.StopListening | SpeechToText.py:229-233 | after Stop the flag is off, and no listener is started |
| Live.ListeningIdempotent | SpeechToText.py:222-233 | pressing Start or Stop twice is pressing it once |
| Live.ListenerCount | SpeechToText.py:222-233 | after any sequence of presses, the flag is what the last press set, and one listener has started per Start press that found the flag off |
| Live.RepeatedStartOneListener | SpeechToText.py:222-227 | pressing Start repeatedly while not listening starts a single listener |
| Display.InsertLine | SpeechToText.py:32-39 | a line mentioning "English:" gets the English style and shows the stripped text after "English:", taking priority over "Urdu:"; a line with only "Urdu:" gets the Urdu style and shows the stripped text after "Urdu:"; any other line is faded and shown as is; a styled line is stamped with the clock |
| Display.AfterLabelSpan | SpeechToText.py:34-37 | the text after the label runs from the label's first occurrence up to the next occurrence or the end of the line |
| Display.NonEmpty | SpeechToText.py:27-30 | the skipped lines are exactly the empty ones |
| Display.NonEmptyAppend | SpeechToText.py:27-30 | skipping empty lines works run by run, so the kept lines keep their order and repetitions |
| Display.SmoothInsert | SpeechToText.py:26-39 | at most one entry per line; the k-th entry, if stamped, carries the k-th clock reading; a faded entry is one non-empty line and its newline |
| Display.LinesShown | SpeechToText.py:26-39 | text made of newline-joined lines is shown as one entry per non-empty line, in order, the k-th classified with the k-th clock reading |
| Display.MessageFaded | SpeechToText.py:38-39 | a one-line message with no label, such as "Error: …" or "API Error: …", is shown as one faded line |
| Display.ResultLineShown | SpeechToText.py:32-37 | a labelled result line is shown as its stripped text in its label's style, stamped with the display's own clock |
| Display.ResultShown | SpeechToText.py:26-39 | a formatted result appears as two stamped lines: the recognised text in the input language's style, then the translation in the other language's style |

## Left out

- Widgets, layout, theming (`toggle_theme`), the status label, the log pane, the progress bars and the help tab are user interface. The model keeps only the text of the result and translation panes, the Translate button's enabled state, and the language names that the input label and the switch button show (`InputName`, `SwitchTarget`), not the full texts of those widgets.
- The float percentage of `update_progress` is left out because it is floating point.
- Threads, the worker pool and `after` scheduling are left out. Chunk completions are modelled one at a time, in any order, each with its pane update applied before the next, so the unsynchronised `chunk_done += 1` race is not modelled. Live utterances are processed one at a time as well.
- Job.JobCompletes: holds only when each completion's `append_result` callback runs before the next worker increments `chunk_done`. In the code the callback is deferred with `after(0, …)` and reads `chunk_done` on the UI thread (VideoToText.py:424-434). If two chunks finish before the first callback runs, both callbacks see `chunk_done == chunk_total` and "Transcription complete!" is shown twice.
- Job.CompleteOnlyAtEnd: under the same interleaving, completion can be reported from an earlier chunk's callback, before the last chunk's result is in the pane; the model does not cover this.
- Audio extraction, directory and time-stamp creation, pydub slicing, and reading chunk files back are I/O. A track is its length in ms. An exported file is the interval it holds (`Chunker.Exported`).
- The speech recogniser, the Google translator, its language table and text-to-speech are foreign services, so they are parameters. What the translator does with the `source` and `target` codes it is passed belongs to the translation library, which is not part of this model.
- `export_transcripts`, `save_settings`, the worker-count setting, `save_transcript` and `show_history` are left out because they are file dialogs, file writes and windows.
- The microphone loop `background_listen` is device I/O. Only how its error message is displayed is modelled (`Display.MessageFaded`).
- Clock readings are opaque strings: `now` in `Live.ProcessAudio`, and `clock(k)` for the k-th non-empty line in `Display`.
- `smooth_insert`'s unused `duration` and `step_count` parameters are left out.
- Text.Lower: lower-cases ASCII letters only, where Python's `str.lower()` also maps non-ASCII letters.
- Numerals.ParseIntDecimal: the model's `int()` accepts ASCII digits only, where Python also accepts other Unicode decimal digits.
- Numerals.ParseIntRejects: a non-ASCII decimal digit counts as an unreadable character here, though Python's `int()` reads "٥٠٠٠" as 5000.
- Chunker.SettingRejects: for the same reason a field of non-ASCII decimal digits such as "٥٠٠٠" is rejected here, though Python reads it as 5000 ms.
- Numerals.ParseInt: the digit limit is CPython's default of 4300 (3.11 and later, and the 3.7.14, 3.8.14, 3.9.14 and 3.10.7 security releases). A limit changed with `sys.set_int_max_str_digits` or `PYTHONINTMAXSTRDIGITS`, and older versions without a limit, are not modelled.
- Numerals.Decimal: `str(n)` has the same 4300-digit limit, which the model leaves out; the numbers rendered (chunk indices and whole seconds of a track) never come near it.
- Job.StartJob: a rejected setting is reported with a fixed `ValueError` text, without the repr of the field that Python's message includes. A numeral over the 4300-digit limit is reported with the same invalid-literal text, where Python's message is "Exceeds the limit (4300 digits) for integer string conversion: value has N digits; …". A failure partway through exporting the chunks (disk I/O) is not modelled.
- Translation.Finish: every exception of the background translation is one `TranslateFailed` outcome.
- Translation.Click: a thread that fails to start is not modelled. The `try` of `translate_text` (VideoToText.py:441-453) also covers `threading.Thread(...).start()`; a `RuntimeError` there reaches the `except` at VideoToText.py:455-458, which enables the button again and starts no request. The model's `Click` always disables the button and hands the request on.
- Live.ProcessAudio: the translator's answer is taken to be a string; a failure of `translate` is an `Error:` line, as any non-request exception is.

=== FILE: chunker.dfy ===
/** Splitting the extracted audio track of a video into fixed-length chunks:
    the chunk-size setting read by `process_video` and the interval
    arithmetic and file naming of `chunk_audio`. The audio itself is left
    out; a track is its length in milliseconds (pydub's `len(audio)`). */
module Chunker {
  import opened Wrappers
  import opened Text
  import opened Numerals

  /** One chunk: the half-open interval [start, end) of the track, in
      milliseconds, and the name of the WAV file it is exported to. */
  datatype Chunk = Chunk(start: nat, end: nat, name: string)

  /** Why a transcription job stops before any chunk is submitted. */
  datatype ChunkError =
    | BadSetting   // `int()` raised ValueError on the chunk-size field
    | ZeroStep     // `range()` raised ValueError: its step must not be zero

  /** The chunk size used when the settings field is left empty. */
  const DefaultChunkMs: int := 5000

  /** The chunk size `process_video` reads from the settings field: the
      default when the field is empty, otherwise the field parsed by `int()`. */
  function ChunkSize(field: string): Result<int, ChunkError>
  {
    if field == "" then Success(DefaultChunkMs)
    else
      match ParseInt(field)
      case None => Failure(BadSetting)
      case Some(v) => Success(v)
  }

  /** An empty field gives 5000 ms; a field holding a numeral (signed or not,
      padded or not with whitespace that `int()` skips) gives its value when
      the numeral is within `int()`'s digit limit and is rejected otherwise; a
      field of only such whitespace is rejected, as is one with a separator
      before the numeral. */
  lemma ChunkSizeSetting(n: nat, a: string, b: string)
    requires AllIntSpace(a) && AllIntSpace(b)
    ensures ChunkSize("") == Success(5000)
    ensures |Decimal(n)| <= MaxStrDigits ==> ChunkSize(a + Decimal(n) + b) == Success(n)
    ensures |Decimal(n)| <= MaxStrDigits ==> ChunkSize(a + ("-" + Decimal(n)) + b) == Success(-(n as int))
    ensures |Decimal(n)| > MaxStrDigits ==> ChunkSize(a + Decimal(n) + b) == Failure(BadSetting)
    ensures |Decimal(n)| > MaxStrDigits ==> ChunkSize(a + ("-" + Decimal(n)) + b) == Failure(BadSetting)
    ensures a + b != "" ==> ChunkSize(a + b) == Failure(BadSetting)
    ensures forall c :: IsSeparator(c) ==> ChunkSize(a + [c] + Decimal(n) + b) == Failure(BadSetting)
  {
    SettingSeparator(n, a, b);
    SettingUnsigned(n, a, b);
    SettingNegative(n, a, b);
    SettingBlank(a, b);
  }

  lemma SettingSeparator(n: nat, a: string, b: string)
    requires AllIntSpace(a) && AllIntSpace(b)
    ensures forall c :: IsSeparator(c) ==> ChunkSize(a + [c] + Decimal(n) + b) == Failure(BadSetting)
  {
    forall c | IsSeparator(c)
      ensures ChunkSize(a + [c] + Decimal(n) + b) == Failure(BadSetting)
    {
      var x := a + [c] + Decimal(n) + b;
      assert x[|a|] == c;
      assert HasSeparator(x);
    }
  }

  lemma SettingUnsigned(n: nat, a: string, b: string)
    requires AllIntSpace(a) && AllIntSpace(b)
    ensures ChunkSize(a + Decimal(n) + b) == if |Decimal(n)| <= MaxStrDigits then Success(n) else Failure(BadSetting)
  {
    ParseIntDecimal(n);
    ParseIntWhitespace(a, Decimal(n), b);
  }

  lemma SettingNegative(n: nat, a: string, b: string)
    requires AllIntSpace(a) && AllIntSpace(b)
    ensures ChunkSize(a + ("-" + Decimal(n)) + b)
         == if |Decimal(n)| <= MaxStrDigits then Success(-(n as int)) else Failure(BadSetting)
  {
    var s := "-" + Decimal(n);
    ParseIntDecimal(n);
    var x := a + s + b;
    ParseIntWhitespace(a, s, b);
    assert x != "";
  }

  lemma SettingBlank(a: string, b: string)
    requires AllIntSpace(a) && AllIntSpace(b)
    ensures a + b != "" ==> ChunkSize(a + b) == Failure(BadSetting)
  {
    assert a + b == a + "" + b;
    ParseIntWhitespace(a, "", b);
  }

  /** The converse: every field accepted other than the empty one is
      whitespace `int()` skips, an optional sign, a digit body within the
      digit limit and whitespace again, and the chunk size is the body's
      value, negated after a minus sign. */
  lemma SettingAccepts(field: string) returns (a: string, sign: string, body: string, b: string)
    requires field != "" && ChunkSize(field).Success?
    ensures field == a + sign + body + b
    ensures AllIntSpace(a) && AllIntSpace(b)
    ensures sign == "" || sign == "-" || sign == "+"
    ensures IsDigitBody(body) && |DropUnderscores(body)| <= MaxStrDigits
    ensures ChunkSize(field).value == if sign == "-" then -(BodyValue(body) as int) else BodyValue(body) as int
  {
    a, sign, body, b := ParseIntAccepts(field);
  }

  /** And every field of that shape is accepted, leading zeros and
      underscores included: "05000" and " 5_000 " give 5000 ms. */
  lemma SettingReads(a: string, sign: string, body: string, b: string)
    requires AllIntSpace(a) && AllIntSpace(b)
    requires sign == "" || sign == "-" || sign == "+"
    requires IsDigitBody(body) && |DropUnderscores(body)| <= MaxStrDigits
    ensures ChunkSize(a + sign + body + b)
         == Success(if sign == "-" then -(BodyValue(body) as int) else BodyValue(body) as int)
  {
    ParseIntReads(a, sign, body, b);
    assert |a + sign + body + b| > 0;
  }

  /** A field holding any character other than skipped whitespace, a digit,
      a sign or an underscore ("5000ms", "5.5", "1e3") is rejected. */
  lemma SettingRejects(field: string, k: nat)
    requires k < |field| && !NumeralChar(field[k])
    ensures ChunkSize(field) == Failure(BadSetting)
  {
    ParseIntRejects(field, k);
  }

  /** The file a chunk starting at `start` ms is exported to:
      `chunk_<start // 1000>.wav`, named after the whole second it starts in. */
  function ChunkFileName(start: nat): string
  {
    "chunk_" + Decimal(start / 1000) + ".wav"
  }

  function Min(a: int, b: int): int {
    if a <= b then a else b
  }

  /** The start of the `i`-th chunk after one at `start`. */
  function Offset(start: nat, i: nat, d: nat): nat
  {
    start + i * d
  }

  /** The chunk that starts at `start` in a track of `len` ms. */
  function ChunkAt(start: nat, len: nat, d: nat): Chunk
  {
    Chunk(start, Min(start + d, len), ChunkFileName(start))
  }

  /** The loop of `chunk_audio` from `start` on: one chunk for each
      `start, start + d, start + 2d, ... < len`. The contract gives the
      closed form of the i-th chunk and brackets the count. */
  function ChunksFrom(start: nat, len: nat, d: nat): (cs: seq<Chunk>)
    requires d > 0
    ensures start >= len <==> cs == []
    ensures |cs| > 0 ==> start + (|cs| - 1) * d < len <= start + |cs| * d
    ensures forall i :: 0 <= i < |cs| ==> cs[i] == ChunkAt(Offset(start, i, d), len, d)
    decreases len - start
  {
    if start >= len then []
    else
      var rest := ChunksFrom(start + d, len, d);
      var cs := [ChunkAt(start, len, d)] + rest;
      ShiftStep(start, len, d, rest);
      CountStep(start, len, d, |rest|);
      cs
  }

  /** Putting the chunk at `start` in front of the chunks from `start + d`
      keeps the closed form of every chunk. */
  lemma ShiftStep(start: nat, len: nat, d: nat, rest: seq<Chunk>)
    requires forall i :: 0 <= i < |rest| ==> rest[i] == ChunkAt(Offset(start + d, i, d), len, d)
    ensures var cs := [ChunkAt(start, len, d)] + rest;
            forall i :: 0 <= i < |cs| ==> cs[i] == ChunkAt(Offset(start, i, d), len, d)
  {
    var cs := [ChunkAt(start, len, d)] + rest;
    forall i | 0 <= i < |cs| ensures cs[i] == ChunkAt(Offset(start, i, d), len, d) {
      if i > 0 {
        assert cs[i] == rest[i - 1];
        MulPred(i, d);
      }
    }
  }

  /** One more chunk in front of `k` chunks starting at `start + d`. */
  lemma CountStep(start: nat, len: nat, d: nat, k: nat)
    requires d > 0 && start < len
    requires k == 0 ==> start + d >= len
    requires k > 0 ==> start + d + (k - 1) * d < len <= start + d + k * d
    ensures start + k * d < len <= start + (k + 1) * d
  {
    MulPred(k, d);
    MulPred(k + 1, d);
  }

  lemma MulPred(i: int, d: int)
    ensures i * d == d + (i - 1) * d
  {
  }

  /** The chunks are back to back with no gap or overlap: the first starts at
      0, each starts where the previous one ends, and the last ends at `len`.
      Every chunk is non-empty and at most `d` long, and only the last may be
      shorter than `d`. */
  ghost predicate Tiles(cs: seq<Chunk>, len: nat, d: nat)
  {
    Spans(cs, len) && Contiguous(cs) && Bounded(cs, d) && FullBeforeLast(cs, d)
  }

  /** There are chunks exactly when the track is not empty, and they run
      from its start to its end. */
  ghost predicate Spans(cs: seq<Chunk>, len: nat)
  {
    && (|cs| == 0 <==> len == 0)
    && (|cs| > 0 ==> cs[0].start == 0 && cs[|cs| - 1].end == len)
  }

  ghost predicate Contiguous(cs: seq<Chunk>)
  {
    forall i :: 0 <= i < |cs| - 1 ==> cs[i].end == cs[i + 1].start
  }

  ghost predicate Bounded(cs: seq<Chunk>, d: nat)
  {
    forall i :: 0 <= i < |cs| ==> 0 < cs[i].end - cs[i].start <= d
  }

  ghost predicate FullBeforeLast(cs: seq<Chunk>, d: nat)
  {
    forall i :: 0 <= i < |cs| - 1 ==> cs[i].end - cs[i].start == d
  }

  /** `chunk_audio(audio, dir, d)` for a track of `len` ms. Python's
      `range(0, len, d)` raises for a zero step and is empty for a negative
      one; for a positive step the chunks tile the track and there are
      ceil(len / d) of them. */
  function ChunkAudio(len: nat, d: int): (r: Result<seq<Chunk>, ChunkError>)
    ensures r.Failure? <==> d == 0
    ensures r.Failure? ==> r.error == ZeroStep
    ensures d < 0 ==> r == Success([])
    ensures d > 0 ==> r.Success? && Tiles(r.value, len, d)
    ensures d > 0 ==> |r.value| == (len + d - 1) / d
  {
    if d == 0 then Failure(ZeroStep)
    else if d < 0 then Success([])
    else
      var cs := ChunksFrom(0, len, d);
      TilesFrom(cs, len, d);
      CeilCount(|cs|, len, d);
      Success(cs)
  }

  lemma TilesFrom(cs: seq<Chunk>, len: nat, d: nat)
    requires d > 0 && cs == ChunksFrom(0, len, d)
    ensures Tiles(cs, len, d)
  {
    SpansFrom(cs, len, d);
    ContiguousFrom(cs, len, d);
    BoundedFrom(cs, len, d);
  }

  lemma SpansFrom(cs: seq<Chunk>, len: nat, d: nat)
    requires d > 0 && cs == ChunksFrom(0, len, d)
    ensures Spans(cs, len)
  {
    if |cs| > 0 {
      var k := |cs|;
      assert cs[0] == ChunkAt(Offset(0, 0, d), len, d);
      assert cs[k - 1] == ChunkAt(Offset(0, k - 1, d), len, d);
      LastChunk(k, len, d);
    }
  }

  lemma ContiguousFrom(cs: seq<Chunk>, len: nat, d: nat)
    requires d > 0 && cs == ChunksFrom(0, len, d)
    ensures Contiguous(cs) && FullBeforeLast(cs, d)
  {
    forall i | 0 <= i < |cs| - 1
      ensures cs[i].end == cs[i + 1].start
      ensures cs[i].end - cs[i].start == d
    {
      assert cs[i] == ChunkAt(Offset(0, i, d), len, d) && cs[i + 1] == ChunkAt(Offset(0, i + 1, d), len, d);
      FullChunk(i, |cs|, len, d);
    }
  }

  lemma BoundedFrom(cs: seq<Chunk>, len: nat, d: nat)
    requires d > 0 && cs == ChunksFrom(0, len, d)
    ensures Bounded(cs, d)
  {
    forall i | 0 <= i < |cs|
      ensures 0 < cs[i].end - cs[i].start <= d
    {
      assert cs[i] == ChunkAt(Offset(0, i, d), len, d);
      SomeChunk(i, |cs|, len, d);
    }
  }

  /** Every chunk before the last of `k` chunks is a full `d` long and ends
      where the next one starts. */
  lemma FullChunk(i: nat, k: nat, len: nat, d: nat)
    requires d > 0 && i + 1 < k && (k - 1) * d < len
    ensures ChunkAt(Offset(0, i, d), len, d).end == ChunkAt(Offset(0, i + 1, d), len, d).start
    ensures ChunkAt(Offset(0, i, d), len, d).end - ChunkAt(Offset(0, i, d), len, d).start == d
  {
    MulPred(i + 1, d);
    MulMono(i + 1, k - 1, d);
  }

  /** The last of `k` chunks ends at the end of the track. */
  lemma LastChunk(k: nat, len: nat, d: nat)
    requires d > 0 && k > 0 && (k - 1) * d < len <= k * d
    ensures ChunkAt(Offset(0, k - 1, d), len, d).end == len
  {
    MulPred(k, d);
  }

  /** Each of the `k` chunks is non-empty and at most `d` long. */
  lemma SomeChunk(i: nat, k: nat, len: nat, d: nat)
    requires d > 0 && i < k && (k - 1) * d < len
    ensures 0 < ChunkAt(Offset(0, i, d), len, d).end - ChunkAt(Offset(0, i, d), len, d).start <= d
  {
    MulMono(i, k - 1, d);
  }

  lemma MulMono(a: int, b: int, d: nat)
    requires a <= b
    ensures a * d <= b * d
  {
  }

  /** A count `k` with `(k - 1) * d < len <= k * d` is ceil(len / d). */
  lemma CeilCount(k: nat, len: nat, d: nat)
    requires d > 0
    requires k == 0 <==> len == 0
    requires k > 0 ==> (k - 1) * d < len <= k * d
    ensures k == (len + d - 1) / d
  {
    if k > 0 {
      var q := (len + d - 1) / d;
      var x := len + d - 1;
      assert q * d <= x < q * d + d;
      MulPred(k, d);
      assert k * d <= x < k * d + d;
      if q < k {
        MulMono(q + 1, k, d);
        MulPred(q + 1, d);
      } else if q > k {
        MulMono(k + 1, q, d);
        MulPred(k + 1, d);
      }
    }
  }

  /** Every millisecond of the track lies in exactly one chunk, the one with
      index `t / d`. */
  lemma Coverage(len: nat, d: nat, t: nat, i: nat)
    requires d > 0 && t < len
    requires i < |ChunkAudio(len, d).value|
    ensures var c := ChunkAudio(len, d).value[i];
            c.start <= t < c.end <==> i == t / d
  {
    var cs := ChunksFrom(0, len, d);
    assert ChunkAudio(len, d).value == cs;
    var c := cs[i];
    assert c.start == i * d && c.end == Min(i * d + d, len);
    SlotOf(i, d, t);
  }

  /** `t` lies in [i * d, i * d + d) exactly when `i == t / d`. */
  lemma SlotOf(i: nat, d: nat, t: nat)
    requires d > 0
    ensures i * d <= t < i * d + d <==> i == t / d
  {
    var q := t / d;
    assert q * d <= t < q * d + d;
    MulPred(i + 1, d);
    MulPred(q + 1, d);
    if i < q {
      MulMono(i + 1, q, d);
    } else if i > q {
      MulMono(q + 1, i, d);
    }
  }

  /** The file name determines the second the chunk starts in. */
  lemma FileNameInjective(s1: nat, s2: nat)
    ensures ChunkFileName(s1) == ChunkFileName(s2) <==> s1 / 1000 == s2 / 1000
  {
    var a := Decimal(s1 / 1000);
    var b := Decimal(s2 / 1000);
    if ChunkFileName(s1) == ChunkFileName(s2) {
      var n1 := "chunk_" + a + ".wav";
      assert |a| == |b|;
      assert a == n1[6..6 + |a|];
      DecimalInjective(s1 / 1000, s2 / 1000);
    }
  }

  /** With chunks of at least one second, no two chunks share a file name. */
  lemma NamesDistinct(len: nat, d: nat)
    requires d >= 1000
    ensures var cs := ChunkAudio(len, d).value;
            forall i, j :: 0 <= i < j < |cs| ==> cs[i].name != cs[j].name
  {
    var cs := ChunksFrom(0, len, d);
    forall i, j | 0 <= i < j < |cs|
      ensures cs[i].name != cs[j].name
    {
      MulMono(i + 1, j, d);
      MulPred(i + 1, d);
      assert (i * d) / 1000 < (j * d) / 1000;
      FileNameInjective(Offset(0, i, d), Offset(0, j, d));
    }
  }

  /** With chunks shorter than one second the first two chunks share the file
      `chunk_0.wav`. */
  lemma NamesCollideBelowOneSecond(len: nat, d: nat)
    requires 0 < d < 1000 && len > d
    ensures var cs := ChunkAudio(len, d).value;
            |cs| >= 2 && cs[0].name == cs[1].name == "chunk_0.wav"
  {
    var cs := ChunksFrom(0, len, d);
    assert cs[1] == ChunkAt(d, len, d);
  }

  /** The exported files after `chunk_audio` has written every chunk in
      order: each name holds the interval of the last chunk written to it. */
  function Exported(cs: seq<Chunk>): (files: map<string, (nat, nat)>)
    ensures forall i :: 0 <= i < |cs| ==> cs[i].name in files
    ensures forall f :: f in files ==> exists i :: 0 <= i < |cs| && cs[i].name == f
  {
    if cs == [] then map[]
    else
      var last := cs[|cs| - 1];
      var prev := Exported(cs[..|cs| - 1]);
      assert forall i :: 0 <= i < |cs| - 1 ==> cs[..|cs| - 1][i] == cs[i];
      prev[last.name := (last.start, last.end)]
  }

  /** When no two chunks share a name, every chunk file holds its own interval. */
  lemma {:induction false} ExportedDistinct(cs: seq<Chunk>)
    requires forall i, j :: 0 <= i < j < |cs| ==> cs[i].name != cs[j].name
    ensures forall i :: 0 <= i < |cs| ==> Exported(cs)[cs[i].name] == (cs[i].start, cs[i].end)
  {
    if cs != [] {
      var init := cs[..|cs| - 1];
      ExportedDistinct(init);
      forall i | 0 <= i < |cs| - 1
        ensures Exported(cs)[cs[i].name] == (cs[i].start, cs[i].end)
      {
        assert init[i] == cs[i];
      }
    }
  }

  /** For chunks of at least a second, each chunk's file holds exactly that
      chunk's audio when the recognisers read it back. */
  lemma ChunkFilesHoldOwnAudio(len: nat, d: nat)
    requires d >= 1000
    ensures var cs := ChunkAudio(len, d).value;
            forall i :: 0 <= i < |cs| ==> Exported(cs)[cs[i].name] == (cs[i].start, cs[i].end)
  {
    NamesDistinct(len, d);
    ExportedDistinct(ChunkAudio(len, d).value);
  }

  /** With chunks shorter than a second and a track of at most two chunks,
      the second chunk overwrites the first one's file: chunk 0 is read back
      with chunk 1's audio, and the first `d` ms are never transcribed. */
  lemma OverwrittenChunkFile(len: nat, d: nat)
    requires 0 < d < 1000 && d < len <= 2 * d
    ensures var cs := ChunkAudio(len, d).value;
            && |cs| == 2
            && cs[0].name == cs[1].name
            && Exported(cs)[cs[0].name] == (d, len)
  {
    var cs := ChunksFrom(0, len, d);
    var k := |cs|;
    if k >= 3 {
      MulMono(2, k - 1, d);
      assert false;
    }
    assert k == 2;
    assert cs[1] == ChunkAt(Offset(0, 1, d), len, d);
    NamesCollideBelowOneSecond(len, d);
    assert cs[..1] == [cs[0]];
  }
}

=== FILE: display.dfy ===
/** The live application's result pane (`smooth_insert`): text is inserted
    line by line, and each non-empty line is either shown as a stamped line
    in the style of the language it is labelled with, or shown faded as it
    is. The clock is a parameter: `clock(k)` is the time read for the k-th
    non-empty line. */
module Display {
  import opened Text
  import Live

  /** The display style of the text of a line. */
  datatype Tag = English | Urdu | Fade

  /** What one line adds to the pane: a stamped line inserts the time stamp
      (in the time-stamp style) and then its text in its language's style; a
      faded line inserts its text in the faded style. */
  datatype Entry =
    | Stamped(stamp: string, text: string, tag: Tag)
    | Faded(text: string)

  /** The labels the classifier looks for, in the order it looks. */
  const EnglishLabel := "English:"
  const UrduLabel := "Urdu:"

  /** A text in which neither label occurs. */
  predicate Unlabelled(s: string) {
    !Contains(s, EnglishLabel) && !Contains(s, UrduLabel)
  }

  /** The text between the first occurrence of `sep` in `line` and the next
      one (or the end of the line) -- Python's `line.split(sep)[1]`. */
  function AfterLabel(line: string, sep: string): string
    requires |sep| > 0 && Contains(line, sep)
  {
    Split(line, sep)[1]
  }

  /** `AfterLabel` is the text that follows the first occurrence of the
      label, up to but excluding the next occurrence, if any. */
  lemma AfterLabelSpan(line: string, sep: string)
    requires |sep| > 0 && Contains(line, sep)
    ensures var i := Find(line, sep).value;
            var rest := line[i + |sep|..];
            var piece := AfterLabel(line, sep);
            && !Contains(piece, sep)
            && (rest == piece || (|piece| + |sep| <= |rest| && rest[..|piece| + |sep|] == piece + sep))
  {
    var i := Find(line, sep).value;
    var rest := line[i + |sep|..];
    var parts := Split(rest, sep);
    assert Split(line, sep) == [line[..i]] + parts;
    var piece := parts[0];
    if |parts| > 1 {
      assert rest == piece + sep + Join(parts[1..], sep);
      assert rest[..|piece| + |sep|] == piece + sep;
    }
  }

  /** One non-empty line: a line mentioning "English:" is English text, else
      one mentioning "Urdu:" is Urdu text -- in both cases the stripped text
      after the label, stamped with the time `now` -- and any other line is
      shown faded as it is. */
  function InsertLine(line: string, now: string): (e: Entry)
    ensures e.Faded? <==> Unlabelled(line)
    ensures e.Faded? ==> e.text == line + "\n"
    ensures e.Stamped? ==> e.stamp == "[" + now + "] " && e.tag != Fade
    ensures e.Stamped? && e.tag == English <==> Contains(line, EnglishLabel)
    ensures e.Stamped? && e.tag == Urdu <==> !Contains(line, EnglishLabel) && Contains(line, UrduLabel)
    ensures e.Stamped? && e.tag == English ==> e.text == Strip(AfterLabel(line, EnglishLabel)) + "\n"
    ensures e.Stamped? && e.tag == Urdu ==> e.text == Strip(AfterLabel(line, UrduLabel)) + "\n"
  {
    if Contains(line, EnglishLabel) then
      Stamped("[" + now + "] ", Strip(AfterLabel(line, EnglishLabel)) + "\n", English)
    else if Contains(line, UrduLabel) then
      Stamped("[" + now + "] ", Strip(AfterLabel(line, UrduLabel)) + "\n", Urdu)
    else Faded(line + "\n")
  }

  /** The non-empty lines, in order. */
  function NonEmpty(lines: seq<string>): (r: seq<string>)
    ensures forall k :: 0 <= k < |r| ==> r[k] != ""
    ensures forall l :: l in r <==> l in lines && l != ""
    ensures |r| <= |lines|
    decreases |lines|
  {
    if lines == [] then []
    else (if lines[0] == "" then [] else [lines[0]]) + NonEmpty(lines[1..])
  }

  /** Dropping the empty lines of two runs of lines one after the other is
      dropping them from each run: the kept lines keep their order and their
      repetitions. */
  lemma {:induction false} NonEmptyAppend(a: seq<string>, b: seq<string>)
    ensures NonEmpty(a + b) == NonEmpty(a) + NonEmpty(b)
    decreases |a|
  {
    if a == [] {
      assert a + b == b;
    } else {
      assert (a + b)[0] == a[0];
      assert (a + b)[1..] == a[1..] + b;
      NonEmptyAppend(a[1..], b);
    }
  }

  /** A single line is kept exactly when it is not empty. */
  lemma NonEmptyOne(line: string)
    ensures NonEmpty([line]) == if line == "" then [] else [line]
  {
    assert [line][1..] == [];
  }

  /** `smooth_insert`: the text is split at newlines, empty lines are
      skipped, and every other line becomes one entry, stamped (if it is
      labelled) with the clock reading taken for it. */
  function SmoothInsert(text: string, clock: nat -> string): (es: seq<Entry>)
    ensures |es| <= |Split(text, "\n")|
    ensures forall k :: 0 <= k < |es| && es[k].Stamped? ==> es[k].stamp == "[" + clock(k) + "] "
    ensures forall k :: 0 <= k < |es| && es[k].Faded? ==>
              |es[k].text| > 1 && es[k].text[|es[k].text| - 1] == '\n' && '\n' !in es[k].text[..|es[k].text| - 1]
  {
    var lines := NonEmpty(Split(text, "\n"));
    KeptLines(text, clock);
    seq(|lines|, k requires 0 <= k < |lines| => InsertLine(lines[k], clock(k)))
  }

  /** Each kept line is a non-empty piece without newlines, so a faded one is
      shown as that one line and its newline. */
  lemma KeptLines(text: string, clock: nat -> string)
    ensures var lines := NonEmpty(Split(text, "\n"));
            forall k :: 0 <= k < |lines| ==>
              var e := InsertLine(lines[k], clock(k));
              e.Faded? ==> |e.text| > 1 && e.text[|e.text| - 1] == '\n' && '\n' !in e.text[..|e.text| - 1]
  {
    var parts := Split(text, "\n");
    var lines := NonEmpty(parts);
    forall k | 0 <= k < |lines|
      ensures var e := InsertLine(lines[k], clock(k));
              e.Faded? ==> |e.text| > 1 && e.text[|e.text| - 1] == '\n' && '\n' !in e.text[..|e.text| - 1]
    {
      assert lines[k] in lines;
      var j :| 0 <= j < |parts| && parts[j] == lines[k];
      NewlineFree(parts[j]);
      var e := InsertLine(lines[k], clock(k));
      if e.Faded? {
        assert e.text[..|e.text| - 1] == lines[k];
      }
    }
  }

  /** A piece of a split at newlines holds no newline. */
  lemma NewlineFree(line: string)
    requires !Contains(line, "\n")
    ensures '\n' !in line
  {
    ContainsChar(line, '\n');
    assert "\n" == ['\n'];
  }

  /** Text written as lines joined by newlines is shown as one entry per
      non-empty line, in order, the k-th of them classified with the k-th
      clock reading. */
  lemma LinesShown(lines: seq<string>, clock: nat -> string)
    requires |lines| >= 1
    requires forall k :: 0 <= k < |lines| ==> '\n' !in lines[k]
    ensures var es := SmoothInsert(Join(lines, "\n"), clock);
            var kept := NonEmpty(lines);
            && |es| == |kept|
            && forall k :: 0 <= k < |es| ==> es[k] == InsertLine(kept[k], clock(k))
  {
    assert "\n" == ['\n'];
    SplitJoin(lines, '\n');
  }

  /** A one-line message without labels -- the "Error: ..." and
      "API Error: ..." lines of the live application -- is shown as one faded
      line. */
  lemma MessageFaded(msg: string, clock: nat -> string)
    requires msg != "" && '\n' !in msg && Unlabelled(msg)
    ensures SmoothInsert(msg, clock) == [Faded(msg + "\n")]
  {
    ContainsChar(msg, '\n');
    assert Split(msg, "\n") == [msg] by { assert "\n" == ['\n']; }
    assert NonEmpty([msg]) == [msg] by { assert [msg][1..] == []; }
    assert |SmoothInsert(msg, clock)| == 1;
    assert SmoothInsert(msg, clock)[0] == InsertLine(msg, clock(0));
  }

  /** Neither label occurs in the stamp `"[" + now + "]"` of a result line. */
  lemma StampUnlabelled(now: string)
    requires Unlabelled(now)
    ensures Unlabelled("[" + now + "]")
  {
    forall sep | sep == EnglishLabel || sep == UrduLabel
      ensures !Contains("[" + now + "]", sep)
    {
      EmptyContainsNothing(sep);
      ContainsAroundChar(now, ']', "", sep);
      assert now + "]" == now + [']'] + "";
      ContainsAroundChar("", '[', now + "]", sep);
      assert "[" + now + "]" == "" + ['['] + (now + "]");
    }
  }

  /** The style a result label selects. */
  function LabelTag(lbl: string): Tag
  {
    if lbl == EnglishLabel then English else Urdu
  }

  /** In a result line, the text after the label is the text written after
      it, with the one separating space. */
  lemma ResultLineLabel(now: string, lbl: string, text: string)
    requires lbl == EnglishLabel || lbl == UrduLabel
    requires Unlabelled(now) && Unlabelled(text)
    ensures Contains(Live.ResultLine(now, lbl, text), lbl)
    ensures AfterLabel(Live.ResultLine(now, lbl, text), lbl) == " " + text
  {
    var a := "[" + now + "]";
    var line := Live.ResultLine(now, lbl, text);
    StampUnlabelled(now);
    assert line == a + [' '] + lbl + (" " + text);
    ContainsAroundChar("", ' ', text, lbl);
    EmptyContainsNothing(lbl);
    assert " " + text == "" + [' '] + text;
    SplitAfterChar(a, ' ', lbl, " " + text);
  }

  /** A result line labelled Urdu does not mention the English label. */
  lemma UrduLineNotEnglish(now: string, text: string)
    requires Unlabelled(now) && Unlabelled(text)
    ensures !Contains(Live.ResultLine(now, UrduLabel, text), EnglishLabel)
  {
    var a := "[" + now + "]";
    StampUnlabelled(now);
    assert Live.ResultLine(now, UrduLabel, text) == a + [' '] + (UrduLabel + [' '] + text);
    ContainsAroundChar(UrduLabel, ' ', text, EnglishLabel);
    ContainsAroundChar(a, ' ', UrduLabel + [' '] + text, EnglishLabel);
  }

  /** A labelled result line is shown as its stripped text, in the style of
      its label, stamped with the display's clock; the stamp written into the
      line itself is dropped. */
  lemma ResultLineShown(now: string, lbl: string, text: string, at: string)
    requires lbl == EnglishLabel || lbl == UrduLabel
    requires Unlabelled(now) && Unlabelled(text)
    ensures InsertLine(Live.ResultLine(now, lbl, text), at)
              == Stamped("[" + at + "] ", Strip(text) + "\n", LabelTag(lbl))
  {
    ResultLineLabel(now, lbl, text);
    StripIgnoresPadding(" ", text, "");
    assert " " + text + "" == " " + text;
    if lbl == UrduLabel {
      UrduLineNotEnglish(now, text);
    }
  }

  /** Text made of two non-empty lines, each ending in a newline, gives two
      entries, stamped with the first two clock readings. */
  lemma TwoLinesShown(text: string, l1: string, l2: string, clock: nat -> string)
    requires l1 != "" && l2 != "" && Split(text, "\n") == [l1, l2, ""]
    ensures SmoothInsert(text, clock) == [InsertLine(l1, clock(0)), InsertLine(l2, clock(1))]
  {
    KeptTwo(l1, l2);
    var es := SmoothInsert(text, clock);
    assert |es| == 2;
    assert es[0] == InsertLine(l1, clock(0));
    assert es[1] == InsertLine(l2, clock(1));
  }

  /** Of two non-empty lines and an empty one, the two are kept. */
  lemma KeptTwo(l1: string, l2: string)
    requires l1 != "" && l2 != ""
    ensures NonEmpty([l1, l2, ""]) == [l1, l2]
  {
    NonEmptyOne(l1);
    NonEmptyOne(l2);
    NonEmptyOne("");
    NonEmptyAppend([l1], [l2]);
    NonEmptyAppend([l1, l2], [""]);
    assert [l1, l2, ""] == [l1, l2] + [""];
    assert [l1, l2] == [l1] + [l2];
  }

  /** The two-line result of `process_audio` appears in the pane as two
      stamped lines: the recognised text in the style of the input language,
      then the translation in the style of the other language. */
  lemma ResultShown(now: string, lang: string, recognized: string, translated: string,
                    clock: nat -> string)
    requires '\n' !in now && '\n' !in recognized && '\n' !in translated
    requires Unlabelled(now) && Unlabelled(recognized) && Unlabelled(translated)
    ensures SmoothInsert(Live.FormatResult(now, lang, recognized, translated), clock)
              == [Stamped("[" + clock(0) + "] ", Strip(recognized) + "\n",
                          if lang == Live.English then English else Urdu),
                  Stamped("[" + clock(1) + "] ", Strip(translated) + "\n",
                          if lang == Live.English then Urdu else English)]
  {
    var lbl1 := Live.OriginalLabel(lang);
    var lbl2 := Live.TranslatedLabel(Live.TargetCode(lang));
    var l1 := Live.ResultLine(now, lbl1, recognized);
    var l2 := Live.ResultLine(now, lbl2, translated);
    Live.FormatTwoLines(now, lang, recognized, translated);
    assert l1[0] == '[' && l2[0] == '[';
    TwoLinesShown(Live.FormatResult(now, lang, recognized, translated), l1, l2, clock);
    ResultLineShown(now, lbl1, recognized, clock(0));
    ResultLineShown(now, lbl2, translated, clock(1));
  }
}

=== FILE: job.dfy ===
/** The chunked transcription job of the video application: starting a job
    (`start_transcription`, `process_video`), recognising one chunk
    (`recognize_audio`) and reporting it (`append_result`). The worker pool
    is modelled sequentially: chunks complete one at a time, in any order,
    and each completion's UI callback runs before the next completion. */
module Job {
  import opened Wrappers
  import opened Numerals
  import opened Chunker

  /** What the speech-recognition service does with one chunk's audio. */
  datatype Recognition =
    | Recognized(text: string)        // `recognize_google` returned text
    | UnknownValue                    // it raised `sr.UnknownValueError`
    | RequestFailed(detail: string)   // it raised `sr.RequestError`; `str(e)`
    | OtherFailed(detail: string)     // any other exception; `str(e)`

  /** The text recorded for a chunk: the recognised text, or a placeholder. */
  function ChunkText(o: Recognition): string
  {
    match o
    case Recognized(t) => t
    case UnknownValue => "[Unintelligible audio]"
    case RequestFailed(e) => "[API error: " + e + "]"
    case OtherFailed(e) => "[Error: " + e + "]"
  }

  /** Reads a placeholder back into the failure it stands for. */
  function ReadPlaceholder(text: string): Option<Recognition>
  {
    if text == "[Unintelligible audio]" then Some(UnknownValue)
    else if |text| >= 13 && text[..12] == "[API error: " && text[|text| - 1] == ']' then
      Some(RequestFailed(text[12..|text| - 1]))
    else if |text| >= 9 && text[..8] == "[Error: " && text[|text| - 1] == ']' then
      Some(OtherFailed(text[8..|text| - 1]))
    else None
  }

  /** No failure aborts the job: every failed recognition is recorded as a
      placeholder from which the kind of failure and its detail can be read
      back, so the three placeholders never collide. */
  lemma PlaceholderRoundTrip(o: Recognition)
    requires !o.Recognized?
    ensures ReadPlaceholder(ChunkText(o)) == Some(o)
  {
    var t := ChunkText(o);
    match o
    case UnknownValue =>
    case RequestFailed(e) =>
      assert t[..12] == "[API error: ";
      assert t[12..|t| - 1] == e;
      assert t != "[Unintelligible audio]" by { assert t[1] == 'A'; }
    case OtherFailed(e) =>
      assert t[..8] == "[Error: ";
      assert t[8..|t| - 1] == e;
      assert t != "[Unintelligible audio]" by { assert t[1] == 'E'; }
      assert !(|t| >= 13 && t[..12] == "[API error: ") by { assert t[1] == 'E'; }
  }

  /** The entry `append_result` adds to the result pane for a chunk. */
  function ResultEntry(index: nat, text: string): string
  {
    "Chunk " + Decimal(index) + " Result:\n" + text + "\n\n"
  }

  /** The state a job shares between workers: the counters `chunk_done` and
      `chunk_total`, the map `translations` from chunk index to text, the
      text of the result pane, and how many times "Transcription complete!"
      has been shown. */
  datatype JobState = JobState(done: int, total: int, results: map<nat, string>, pane: string, completions: nat)

  /** The job is complete when the done counter has reached the total. */
  predicate Complete(job: JobState)
  {
    job.done == job.total
  }

  /** One worker finishing chunk `index`: `recognize_audio` bumps the done
      counter and records the text, then `append_result` appends the entry
      to the pane and shows the completion status if the counters are equal.
      Nothing else changes. */
  function FinishChunk(job: JobState, index: nat, o: Recognition): (j: JobState)
    ensures j.done == job.done + 1 && j.total == job.total
    ensures j.results.Keys == job.results.Keys + {index}
    ensures j.results[index] == ChunkText(o)
    ensures forall k :: k in job.results && k != index ==> j.results[k] == job.results[k]
    ensures j.pane == job.pane + ResultEntry(index, ChunkText(o))
    ensures Complete(j) ==> j.completions == job.completions + 1
    ensures !Complete(j) ==> j.completions == job.completions
  {
    var text := ChunkText(o);
    var done := job.done + 1;
    JobState(done, job.total, job.results[index := text], job.pane + ResultEntry(index, text),
        if done == job.total then job.completions + 1 else job.completions)
  }

  /** Why a job fails before its chunks are submitted. */
  datatype JobError =
    | ExtractionFailed(detail: string)   // creating the run directory or extracting the audio raised
    | SettingRejected                    // `int()` rejected the chunk-size field
    | StepZero                           // the chunk size was 0, so `range()` raised

  /** Starting a job, from the state left by an earlier one. */
  datatype Start =
    | Started(job: JobState, chunks: seq<Chunk>)
    | Failed(job: JobState, error: JobError)

  /** `start_transcription` followed by `process_video` up to the submission
      of the chunks. The pane and the result map are cleared and the done
      counter reset; the total is replaced only once the chunks are known.
      `audio` is the extracted track's length, or the extraction's failure. */
  function StartJob(job: JobState, field: string, audio: Result<nat, string>): (s: Start)
    ensures s.job.done == 0 && s.job.results == map[] && s.job.completions == job.completions
    ensures s.Failed? ==> s.job.total == job.total
    ensures s.Failed? ==> s.job.pane == "Error: " + ErrorDetail(s.error) + "\n"
    ensures audio.Failure? ==> s.Failed? && s.error == ExtractionFailed(audio.error)
    ensures audio.Success? ==> s == StartChunks(job.(done := 0, results := map[], pane := ""), audio.value, ChunkSize(field))
  {
    var cleared := job.(done := 0, results := map[], pane := "");
    match audio
    case Failure(e) => Failed(Fail(cleared, ExtractionFailed(e)), ExtractionFailed(e))
    case Success(len) => StartChunks(cleared, len, ChunkSize(field))
  }

  /** `process_video` once the audio of `len` ms is extracted, given the
      chunk size read from the settings field (or the failure reading it). */
  function StartChunks(cleared: JobState, len: nat, size: Result<int, ChunkError>): (s: Start)
    ensures s.job.done == cleared.done && s.job.results == cleared.results && s.job.completions == cleared.completions
    ensures s.Started? ==> s.job.total == |s.chunks| && s.job.pane == cleared.pane
    ensures s.Failed? ==> s.job.total == cleared.total
    ensures s.Started? <==> size.Success? && size.value != 0
    ensures s.Started? && size.value > 0 ==> Tiles(s.chunks, len, size.value)
    ensures s.Started? ==> ChunkAudio(len, size.value) == Success(s.chunks)
    ensures s.Started? && size.value < 0 ==> s.chunks == []
    ensures size.Failure? ==> s.Failed? && s.error == SettingRejected
    ensures size == Success(0) ==> s.Failed? && s.error == StepZero
    ensures s.Failed? ==> s.job.pane == cleared.pane + "Error: " + ErrorDetail(s.error) + "\n"
  {
    match size
    case Failure(_) => Failed(Fail(cleared, SettingRejected), SettingRejected)
    case Success(d) =>
      match ChunkAudio(len, d)
      case Failure(_) => Failed(Fail(cleared, StepZero), StepZero)
      case Success(chunks) => Started(cleared.(total := |chunks|), chunks)
  }

  /** The error line `process_video` writes to the result pane. */
  function Fail(job: JobState, e: JobError): JobState
  {
    job.(pane := job.pane + "Error: " + ErrorDetail(e) + "\n")
  }

  /** `str(e)` of the exception that stopped the job. */
  function ErrorDetail(e: JobError): string
  {
    match e
    case ExtractionFailed(d) => d
    case SettingRejected => "invalid literal for int() with base 10"
    case StepZero => "range() arg 3 must not be zero"
  }

  /** An empty setting and a track of `len` ms give ceil(len / 5000) chunks
      of the default size. */
  lemma DefaultJob(job: JobState, len: nat)
    ensures var s := StartJob(job, "", Success(len));
            s.Started? && s.job.total == (len + 4999) / 5000 && Tiles(s.chunks, len, 5000)
  {
  }

  /** Chunks finishing one after another, in the order `order`; `outcome`
      gives the recognition of each chunk. */
  function RunChunks(job: JobState, order: seq<nat>, outcome: nat -> Recognition): JobState
    decreases |order|
  {
    if order == [] then job
    else RunChunks(FinishChunk(job, order[0], outcome(order[0])), order[1..], outcome)
  }

  /** The pane entries of chunks finishing in the order `order`. */
  function Entries(order: seq<nat>, outcome: nat -> Recognition): string
    decreases |order|
  {
    if order == [] then ""
    else ResultEntry(order[0], ChunkText(outcome(order[0]))) + Entries(order[1..], outcome)
  }

  /** What any sequence of completions does: the done counter grows by the
      number of completions, exactly the finished indices gain a result, each
      holding its own chunk's text, the pane lists the entries in completion
      order, and the completion status is shown once if the counter passes
      the total and never otherwise. */
  lemma RunEffect(job: JobState, order: seq<nat>, outcome: nat -> Recognition)
    ensures var j := RunChunks(job, order, outcome);
            && j.done == job.done + |order|
            && j.total == job.total
            && (forall k :: k in j.results <==> k in job.results || k in order)
            && (forall k :: k in order ==> j.results[k] == ChunkText(outcome(k)))
            && (forall k :: k in job.results && k !in order ==> j.results[k] == job.results[k])
            && j.pane == job.pane + Entries(order, outcome)
            && j.completions == job.completions
                 + (if job.done < job.total <= job.done + |order| then 1 else 0)
  {
    RunCounters(job, order, outcome);
    RunResults(job, order, outcome);
    RunPane(job, order, outcome);
  }

  lemma {:induction false} RunCounters(job: JobState, order: seq<nat>, outcome: nat -> Recognition)
    ensures var j := RunChunks(job, order, outcome);
            && j.done == job.done + |order|
            && j.total == job.total
            && j.completions == job.completions
                 + (if job.done < job.total <= job.done + |order| then 1 else 0)
    decreases |order|
  {
    if order != [] {
      RunCounters(FinishChunk(job, order[0], outcome(order[0])), order[1..], outcome);
    }
  }

  lemma {:induction false} RunResults(job: JobState, order: seq<nat>, outcome: nat -> Recognition)
    ensures var j := RunChunks(job, order, outcome);
            && (forall k :: k in j.results <==> k in job.results || k in order)
            && (forall k :: k in order ==> j.results[k] == ChunkText(outcome(k)))
            && (forall k :: k in job.results && k !in order ==> j.results[k] == job.results[k])
    decreases |order|
  {
    if order != [] {
      var next := FinishChunk(job, order[0], outcome(order[0]));
      RunResults(next, order[1..], outcome);
      assert forall k :: k in order <==> k == order[0] || k in order[1..];
    }
  }

  lemma {:induction false} RunPane(job: JobState, order: seq<nat>, outcome: nat -> Recognition)
    ensures RunChunks(job, order, outcome).pane == job.pane + Entries(order, outcome)
    decreases |order|
  {
    if order == [] {
      assert job.pane + "" == job.pane;
    } else {
      var next := RunStep(job, order, outcome);
      RunPane(next, order[1..], outcome);
      PaneStep(job.pane, next.pane, ResultEntry(order[0], ChunkText(outcome(order[0]))),
               Entries(order[1..], outcome), RunChunks(next, order[1..], outcome).pane);
    }
  }

  /** The pane after the first entry is the pane before it followed by the entry. */
  lemma PaneStep(before: string, after: string, entry: string, later: string, final: string)
    requires after == before + entry && final == after + later
    ensures final == before + (entry + later)
  {
  }

  /** The state after the first completion of a non-empty run, from which
      the rest of the run continues. */
  function RunStep(job: JobState, order: seq<nat>, outcome: nat -> Recognition): (next: JobState)
    requires order != []
    ensures next.pane == job.pane + ResultEntry(order[0], ChunkText(outcome(order[0])))
    ensures RunChunks(job, order, outcome) == RunChunks(next, order[1..], outcome)
  {
    FinishChunk(job, order[0], outcome(order[0]))
  }

  /** `order` runs every chunk index below `n` once: it has `n` entries, all
      below `n`, and each index below `n` appears. */
  predicate IsSchedule(order: seq<nat>, n: nat)
  {
    && |order| == n
    && (forall i :: 0 <= i < |order| ==> order[i] < n)
    && (forall k :: 0 <= k < n ==> k in order)
  }

  /** A started job whose chunks all finish, in any order, ends with the done
      counter at the total, a result for exactly the indices 0..n-1, each the
      text of its own chunk's recognition, and the completion status shown
      exactly once (never for a job with no chunks). */
  lemma JobCompletes(job: JobState, n: nat, order: seq<nat>, outcome: nat -> Recognition)
    requires job.done == 0 && job.total == n && job.results == map[]
    requires IsSchedule(order, n)
    ensures var j := RunChunks(job, order, outcome);
            && Complete(j)
            && (forall k :: k in j.results <==> 0 <= k < n)
            && (forall k :: 0 <= k < n ==> j.results[k] == ChunkText(outcome(k)))
            && j.completions == job.completions + (if n > 0 then 1 else 0)
  {
    RunEffect(job, order, outcome);
  }

  /** The status is shown at the last completion and at no earlier one:
      after any proper prefix of a schedule the job is not complete. */
  lemma CompleteOnlyAtEnd(job: JobState, n: nat, order: seq<nat>, outcome: nat -> Recognition, m: nat)
    requires job.done == 0 && job.total == n
    requires IsSchedule(order, n) && m <= n
    ensures Complete(RunChunks(job, order[..m], outcome)) <==> m == n
    ensures RunChunks(job, order[..m], outcome).completions
              == job.completions + (if 0 < m == n then 1 else 0)
  {
    RunEffect(job, order[..m], outcome);
  }
}

=== FILE: live.dfy ===
/** The live-microphone application: the input-language toggle, the language
    codes derived from it, the bounded recognition retry and the result
    formatting of `process_audio`, and the listening flag. The recogniser,
    the translator and the clock are parameters. */
module Live {
  import opened Wrappers
  import opened Text
  import Translation

  /** The two input languages the toggle moves between. */
  const English := "en-US"
  const Urdu := "ur-PK"

  /** `toggle_language`: English input becomes Urdu; any other value
      becomes English. */
  function Toggle(lang: string): (r: string)
    ensures r == English || r == Urdu
    ensures r == Urdu <==> lang == English
  {
    if lang == English then Urdu else English
  }

  /** Toggling twice restores either of the two languages; any other value
      (which the application never holds) settles on Urdu. */
  lemma ToggleTwice(lang: string)
    ensures lang == English || lang == Urdu ==> Toggle(Toggle(lang)) == lang
    ensures lang != English && lang != Urdu ==> Toggle(Toggle(lang)) == Urdu
  {
  }

  /** The input language after `n` toggles. */
  function ToggleTimes(lang: string, n: nat): string
    decreases n
  {
    if n == 0 then lang else Toggle(ToggleTimes(lang, n - 1))
  }

  /** Starting from English, the input alternates between English (after an
      even number of toggles) and Urdu (after an odd number). */
  lemma {:induction false} ToggleAlternates(n: nat)
    ensures ToggleTimes(English, n) == if n % 2 == 0 then English else Urdu
    decreases n
  {
    if n > 0 {
      ToggleAlternates(n - 1);
    }
  }

  /** The language name the status label shows for an input language. */
  function InputName(lang: string): string
  {
    if lang == Urdu then "Urdu" else "English"
  }

  /** The language the switch button offers after the toggle chose `lang`. */
  function SwitchTarget(lang: string): string
  {
    if lang == English then "Urdu" else "English"
  }

  /** After a toggle, the label names the language just chosen and the
      button offers exactly the language the next toggle will choose. */
  lemma ToggleLabels(lang: string)
    ensures InputName(Toggle(lang)) == (if lang == English then "Urdu" else "English")
    ensures SwitchTarget(Toggle(lang)) == InputName(Toggle(Toggle(lang)))
    ensures SwitchTarget(Toggle(lang)) != InputName(Toggle(lang))
  {
  }

  /** The translation target of `process_audio`. */
  function TargetCode(lang: string): string
  {
    if lang == English then "ur" else "en"
  }

  /** The translation source of `process_audio`. */
  function SourceCode(lang: string): string
  {
    if lang == English then "en" else "ur"
  }

  /** For either input language, the source code is the language's own
      two-letter prefix and the target is the other language's prefix, so
      the two always differ and toggling the input swaps them. */
  lemma CodesFollowLanguage(lang: string)
    requires lang == English || lang == Urdu
    ensures SourceCode(lang) == lang[..2]
    ensures TargetCode(lang) == Toggle(lang)[..2]
    ensures SourceCode(lang) != TargetCode(lang)
    ensures SourceCode(Toggle(lang)) == TargetCode(lang) && TargetCode(Toggle(lang)) == SourceCode(lang)
  {
  }

  /** What one call of the recogniser does. */
  datatype Attempt =
    | Heard(text: string)             // `recognize_google` returned text
    | NotUnderstood                   // it raised `sr.UnknownValueError`
    | ServiceDown(detail: string)     // it raised `sr.RequestError`
    | Crashed(detail: string)         // it raised anything else

  /** What the retry loop ends with. */
  datatype RetryOutcome =
    | Got(text: string)               // an attempt succeeded
    | GaveUp                          // every attempt was not understood
    | ApiError(detail: string)        // a request error escaped the loop
    | OtherError(detail: string)      // another exception escaped the loop

  /** `retry_count` in `process_audio`. */
  const MaxAttempts: nat := 3

  /** The retry loop from attempt `i` on; `attempt(k)` is what the k-th call
      of the recogniser does. The result is paired with the number of
      attempts made in all. Only `NotUnderstood` is retried: the first
      success or other exception ends the loop, and at most three attempts
      are made. */
  function RetryFrom(attempt: nat -> Attempt, i: nat): (r: (RetryOutcome, nat))
    requires i <= MaxAttempts
    ensures i <= r.1 <= MaxAttempts
    ensures forall k :: i <= k < r.1 - 1 ==> attempt(k).NotUnderstood?
    ensures r.0.GaveUp? <==> r.1 == MaxAttempts && (i == MaxAttempts || attempt(MaxAttempts - 1).NotUnderstood?)
    ensures r.0.Got? ==> r.1 > i && attempt(r.1 - 1) == Heard(r.0.text)
    ensures r.0.ApiError? ==> r.1 > i && attempt(r.1 - 1) == ServiceDown(r.0.detail)
    ensures r.0.OtherError? ==> r.1 > i && attempt(r.1 - 1) == Crashed(r.0.detail)
    decreases MaxAttempts - i
  {
    if i == MaxAttempts then (GaveUp, MaxAttempts)
    else
      match attempt(i)
      case Heard(t) => (Got(t), i + 1)
      case NotUnderstood => RetryFrom(attempt, i + 1)
      case ServiceDown(e) => (ApiError(e), i + 1)
      case Crashed(e) => (OtherError(e), i + 1)
  }

  /** The whole retry loop of `process_audio`. */
  function Recognize(attempt: nat -> Attempt): (RetryOutcome, nat)
  {
    RetryFrom(attempt, 0)
  }

  /** The loop gives up only after three attempts that were all not
      understood, and it succeeds exactly when some attempt within the first
      three is heard after only not-understood ones. */
  lemma RetryBound(attempt: nat -> Attempt)
    ensures Recognize(attempt).0.GaveUp? <==> forall k :: 0 <= k < MaxAttempts ==> attempt(k).NotUnderstood?
    ensures Recognize(attempt).0.Got? <==>
              exists n :: 0 <= n < MaxAttempts && attempt(n).Heard?
                && forall k :: 0 <= k < n ==> attempt(k).NotUnderstood?
  {
    var r := Recognize(attempt);
    if r.0.Got? {
      var n := r.1 - 1;
      assert 0 <= n < MaxAttempts && attempt(n).Heard? && forall k :: 0 <= k < n ==> attempt(k).NotUnderstood?;
    }
    if exists n :: 0 <= n < MaxAttempts && attempt(n).Heard? && forall k :: 0 <= k < n ==> attempt(k).NotUnderstood? {
      var n :| 0 <= n < MaxAttempts && attempt(n).Heard? && forall k :: 0 <= k < n ==> attempt(k).NotUnderstood?;
      assert r.1 - 1 == n;
    }
  }

  /** The label that names the language of a line. */
  function OriginalLabel(lang: string): string
  {
    if lang == English then "English:" else "Urdu:"
  }

  function TranslatedLabel(target: string): string
  {
    if target == "ur" then "Urdu:" else "English:"
  }

  /** One labelled line of a result, without its newline. */
  function ResultLine(now: string, heading: string, text: string): string
  {
    "[" + now + "] " + heading + " " + text
  }

  /** The result `process_audio` shows and records: the recognised text and
      its translation, each on a line stamped with the same time. */
  function FormatResult(now: string, lang: string, recognized: string, translated: string): string
  {
    ResultLine(now, OriginalLabel(lang), recognized) + "\n"
      + ResultLine(now, TranslatedLabel(TargetCode(lang)), translated) + "\n"
  }

  /** A formatted result is exactly two newline-terminated lines with the
      same time stamp, the first labelled with the input language and the
      second with the other language. */
  lemma FormatTwoLines(now: string, lang: string, recognized: string, translated: string)
    requires '\n' !in now && '\n' !in recognized && '\n' !in translated
    ensures Split(FormatResult(now, lang, recognized, translated), "\n")
              == [ResultLine(now, OriginalLabel(lang), recognized),
                  ResultLine(now, TranslatedLabel(TargetCode(lang)), translated),
                  ""]
    ensures OriginalLabel(lang) != TranslatedLabel(TargetCode(lang))
  {
    var l1 := ResultLine(now, OriginalLabel(lang), recognized);
    var l2 := ResultLine(now, TranslatedLabel(TargetCode(lang)), translated);
    assert '\n' !in l1 && '\n' !in l2;
    ContainsChar(l1, '\n');
    ContainsChar(l2, '\n');
    assert FormatResult(now, lang, recognized, translated) == l1 + "\n" + (l2 + "\n" + "");
    SplitAtChar(l1, '\n', l2 + "\n" + "");
    SplitAtChar(l2, '\n', "");
    assert Split("", "\n") == [""] by { EmptyContainsNothing("\n"); }
  }

  /** The live application's state: the input language, the listening flag,
      how many listener threads were started, the history of results, the
      texts handed to the display, and the texts handed to speech output. */
  datatype LiveState = LiveState(lang: string, listening: bool, listeners: nat,
                       history: seq<string>, shown: seq<string>, spoken: seq<string>)

  /** `process_audio` for one utterance. `attempt` is the recogniser's
      behaviour on successive calls, `translate` maps text, source and target
      codes to the translator's answer, and `now` is the time stamp. A
      non-empty recognition that translates is shown, appended to the history
      and spoken; a request error or any other exception is shown as an error
      line; giving up, or an empty recognition, does nothing. */
  function ProcessAudio(st: LiveState, attempt: nat -> Attempt,
                        translate: (string, string, string) -> Translation.Outcome, now: string): (s: LiveState)
    ensures s.lang == st.lang && s.listening == st.listening && s.listeners == st.listeners
    ensures |st.history| <= |s.history| <= |st.history| + 1 && s.history[..|st.history|] == st.history
    ensures |s.history| == |st.history| + 1 <==>
              && Recognize(attempt).0.Got?
              && Recognize(attempt).0.text != ""
              && translate(Recognize(attempt).0.text, SourceCode(st.lang), TargetCode(st.lang)).Translated?
    ensures |s.history| == |st.history| + 1 ==>
              var recognized := Recognize(attempt).0.text;
              var translated := translate(recognized, SourceCode(st.lang), TargetCode(st.lang)).text;
              && s.history[|st.history|] == FormatResult(now, st.lang, recognized, translated)
              && s.shown == st.shown + [FormatResult(now, st.lang, recognized, translated)]
              && s.spoken == st.spoken + [translated]
    ensures |s.history| == |st.history| ==> s.spoken == st.spoken
    ensures Recognize(attempt).0.GaveUp? || Recognize(attempt).0 == Got("") ==> s == st
    ensures Recognize(attempt).0.ApiError? ==>
              s == st.(shown := st.shown + ["API Error: " + Recognize(attempt).0.detail])
    ensures Recognize(attempt).0.OtherError? ==>
              s == st.(shown := st.shown + ["Error: " + Recognize(attempt).0.detail])
    ensures Recognize(attempt).0.Got? && Recognize(attempt).0.text != "" &&
            translate(Recognize(attempt).0.text, SourceCode(st.lang), TargetCode(st.lang)).TranslateFailed? ==>
              s == st.(shown := st.shown + ["Error: " + translate(Recognize(attempt).0.text, SourceCode(st.lang), TargetCode(st.lang)).detail])
  {
    var lang := st.lang;
    var target := TargetCode(lang);
    match Recognize(attempt).0
    case GaveUp => st
    case ApiError(e) => st.(shown := st.shown + ["API Error: " + e])
    case OtherError(e) => st.(shown := st.shown + ["Error: " + e])
    case Got(recognized) =>
      if recognized == "" then st
      else
        match translate(recognized, SourceCode(lang), target)
        case TranslateFailed(e) => st.(shown := st.shown + ["Error: " + e])
        case Translated(translated) =>
          var result := FormatResult(now, lang, recognized, translated);
          st.(shown := st.shown + [result], history := st.history + [result],
              spoken := st.spoken + [translated])
  }

  /** `start_listening`: only when not listening, set the flag and start a
      listener thread. */
  function StartListening(st: LiveState): (s: LiveState)
    ensures s.listening
    ensures s.listeners == st.listeners + (if st.listening then 0 else 1)
    ensures s.lang == st.lang && s.history == st.history && s.shown == st.shown && s.spoken == st.spoken
  {
    if !st.listening then st.(listening := true, listeners := st.listeners + 1) else st
  }

  /** `stop_listening`: only when listening, clear the flag. */
  function StopListening(st: LiveState): (s: LiveState)
    ensures !s.listening
    ensures s.listeners == st.listeners
    ensures s.lang == st.lang && s.history == st.history && s.shown == st.shown && s.spoken == st.spoken
  {
    if st.listening then st.(listening := false) else st
  }

  /** Pressing Start or Stop twice is pressing it once, and a second Start
      starts no second listener thread. */
  lemma ListeningIdempotent(st: LiveState)
    ensures StartListening(StartListening(st)) == StartListening(st)
    ensures StopListening(StopListening(st)) == StopListening(st)
    ensures StartListening(StartListening(st)).listeners <= st.listeners + 1
  {
  }

  /** The state after a sequence of presses: Start for `true`, Stop for
      `false`. */
  function ListenerRuns(st: LiveState, presses: seq<bool>): LiveState
    decreases |presses|
  {
    if presses == [] then st
    else ListenerRuns(if presses[0] then StartListening(st) else StopListening(st), presses[1..])
  }

  /** The number of Start presses that find the flag off, when the flag is
      `on` before the first press. */
  function Rises(on: bool, presses: seq<bool>): nat
    decreases |presses|
  {
    if presses == [] then 0
    else (if presses[0] && !on then 1 else 0) + Rises(presses[0], presses[1..])
  }

  /** After any sequence of presses the flag is what the last press set, and
      exactly one listener thread has been started per Start press that found
      the flag off; nothing else changes. */
  lemma {:induction false} ListenerCount(st: LiveState, presses: seq<bool>)
    ensures ListenerRuns(st, presses).listeners == st.listeners + Rises(st.listening, presses)
    ensures ListenerRuns(st, presses).listening == if presses == [] then st.listening else presses[|presses| - 1]
    ensures ListenerRuns(st, presses).(listening := st.listening, listeners := st.listeners) == st
    decreases |presses|
  {
    if presses != [] {
      var next := if presses[0] then StartListening(st) else StopListening(st);
      ListenerCount(next, presses[1..]);
    }
  }

  /** Pressing Start `n` times in a row while not listening starts a single
      listener thread. */
  lemma {:induction false} RepeatedStartOneListener(n: nat)
    requires n > 0
    ensures Rises(false, seq(n, _ => true)) == 1
  {
    var presses := seq(n, _ => true);
    assert presses[1..] == seq(n - 1, _ => true);
    RisesWhileOn(n - 1);
  }

  lemma {:induction false} RisesWhileOn(n: nat)
    ensures Rises(true, seq(n, _ => true)) == 0
    decreases n
  {
    if n > 0 {
      var presses := seq(n, _ => true);
      assert presses[1..] == seq(n - 1, _ => true);
      RisesWhileOn(n - 1);
    }
  }
}

=== FILE: numerals.dfy ===
/** Decimal numerals: Python's rendering of a non-negative `int` (as in an
    f-string) and Python's `int(text)` parser, which reads the chunk-size
    setting of the video application. */
module Numerals {
  import opened Wrappers
  import opened Text

  predicate IsDigit(c: char) {
    '0' <= c <= '9'
  }

  predicate AllDigits(s: string) {
    forall k :: 0 <= k < |s| ==> IsDigit(s[k])
  }

  function DigitValue(c: char): nat
    requires IsDigit(c)
  {
    c as int - '0' as int
  }

  function DigitChar(d: nat): (c: char)
    requires d < 10
    ensures IsDigit(c) && DigitValue(c) == d
  {
    ('0' as int + d) as char
  }

  /** The number a string of digits denotes (leading zeros allowed, "" is 0). */
  function ValueOf(s: string): nat
    requires AllDigits(s)
    decreases |s|
  {
    if s == "" then 0 else ValueOf(s[..|s| - 1]) * 10 + DigitValue(s[|s| - 1])
  }

  /** Python's `str(n)` for `n >= 0`: a canonical numeral (no sign, no leading
      zero except for 0 itself) that reads back as `n`. */
  function Decimal(n: nat): (r: string)
    ensures |r| >= 1 && AllDigits(r)
    ensures ValueOf(r) == n
    ensures r[0] == '0' ==> r == "0"
    decreases n
  {
    if n < 10 then [DigitChar(n)]
    else
      var r := Decimal(n / 10) + [DigitChar(n % 10)];
      assert r[..|r| - 1] == Decimal(n / 10);
      r
  }

  /** Distinct numbers have distinct numerals. */
  lemma DecimalInjective(a: nat, b: nat)
    ensures Decimal(a) == Decimal(b) <==> a == b
  {
  }

  /** Python's `int()` digit body: ASCII digits, with single underscores
      allowed between two digits ("5_000"). */
  predicate IsDigitBody(s: string) {
    && |s| > 0
    && IsDigit(s[0])
    && (forall k :: 0 <= k < |s| ==> IsDigit(s[k]) || s[k] == '_')
    && (forall k :: 0 <= k < |s| && s[k] == '_' ==> k + 1 < |s| && IsDigit(s[k + 1]))
  }

  /** The digits of `s` with the underscores removed. */
  function DropUnderscores(s: string): (r: string)
    requires forall k :: 0 <= k < |s| ==> IsDigit(s[k]) || s[k] == '_'
    ensures AllDigits(r)
    ensures AllDigits(s) ==> r == s
    decreases |s|
  {
    if s == "" then ""
    else if s[0] == '_' then DropUnderscores(s[1..])
    else [s[0]] + DropUnderscores(s[1..])
  }

  /** The information separators U+001C..U+001F: `str.isspace` counts them
      as whitespace, but `int()` neither skips them nor reads them as digits. */
  predicate IsSeparator(c: char) {
    '\U{1C}' <= c <= '\U{1F}'
  }

  predicate HasSeparator(s: string) {
    exists k :: 0 <= k < |s| && IsSeparator(s[k])
  }

  /** Whitespace that `int()` skips: `str.isspace` without the separators. */
  predicate IntSpace(c: char) {
    IsSpace(c) && !IsSeparator(c)
  }

  predicate AllIntSpace(s: string) {
    forall k :: 0 <= k < |s| ==> IntSpace(s[k])
  }

  /** Python's `int(text)` in base 10: surrounding whitespace is ignored, an
      optional `+` or `-` sign is followed directly by the digit body, and any
      other text raises `ValueError` (here `None`). A separator anywhere is
      neither skipped nor a digit, so it makes the text invalid; text without
      one strips as `str.strip()` does. */
  function ParseInt(text: string): (r: Option<int>)
    ensures HasSeparator(text) ==> r.None?
  {
    if HasSeparator(text) then None else ParseStripped(Strip(text))
  }

  /** `int()` on text that has already been stripped of surrounding whitespace. */
  function ParseStripped(t: string): (r: Option<int>)
  {
    if |t| > 0 && t[0] == '-' then Signed(true, ParseBody(t[1..]))
    else if |t| > 0 && t[0] == '+' then Signed(false, ParseBody(t[1..]))
    else Signed(false, ParseBody(t))
  }

  /** A parsed magnitude with its sign applied. */
  function Signed(negative: bool, magnitude: Option<nat>): Option<int>
  {
    match magnitude
    case None => None
    case Some(v) => if negative then Some(-(v as int)) else Some(v as int)
  }

  /** The default of CPython's `sys.get_int_max_str_digits()` (3.11 and
      later, and the 3.7.14, 3.8.14, 3.9.14 and 3.10.7 security releases):
      `int()` refuses a decimal body of more digits than this, underscores
      not counted. */
  const MaxStrDigits: nat := 4300

  /** An unsigned digit body and its value; too many digits raise `ValueError`. */
  function ParseBody(body: string): Option<nat>
  {
    if IsDigitBody(body) && |DropUnderscores(body)| <= MaxStrDigits then Some(BodyValue(body))
    else None
  }

  /** The number a digit body denotes, underscores ignored. */
  function BodyValue(body: string): nat
    requires IsDigitBody(body)
  {
    ValueOf(DropUnderscores(body))
  }

  /** An all-digit string is a digit body worth its value. */
  lemma DigitsAreBody(d: string)
    requires |d| > 0 && AllDigits(d)
    ensures IsDigitBody(d) && BodyValue(d) == ValueOf(d)
  {
  }

  /** Reading back a rendered numeral gives the number, with or without a
      sign, as long as it is within the digit limit; a longer one is refused. */
  lemma ParseIntDecimal(n: nat)
    ensures |Decimal(n)| <= MaxStrDigits ==> ParseInt(Decimal(n)) == Some(n)
    ensures |Decimal(n)| <= MaxStrDigits ==> ParseInt("-" + Decimal(n)) == Some(-(n as int))
    ensures |Decimal(n)| <= MaxStrDigits ==> ParseInt("+" + Decimal(n)) == Some(n)
    ensures |Decimal(n)| > MaxStrDigits ==> ParseInt(Decimal(n)) == None
    ensures |Decimal(n)| > MaxStrDigits ==> ParseInt("-" + Decimal(n)) == None
    ensures |Decimal(n)| > MaxStrDigits ==> ParseInt("+" + Decimal(n)) == None
  {
    ParseUnsigned(n);
    ParseNegative(n);
    ParsePositive(n);
  }

  lemma ParseUnsigned(n: nat)
    ensures ParseInt(Decimal(n)) == if |Decimal(n)| <= MaxStrDigits then Some(n) else None
  {
    var d := Decimal(n);
    DigitsAreBody(d);
    assert DropUnderscores(d) == d;
    assert ParseBody(d) == if |d| <= MaxStrDigits then Some(n) else None;
    assert IsDigit(d[0]);
    assert ParseStripped(d) == Signed(false, ParseBody(d));
    ParseIsStripped(d);
  }

  lemma ParseNegative(n: nat)
    ensures ParseInt("-" + Decimal(n)) == if |Decimal(n)| <= MaxStrDigits then Some(-(n as int)) else None
  {
    var d := Decimal(n);
    SignedBody(d);
    ParseIsStripped("-" + d);
    SignedNegative(n);
  }

  lemma SignedNegative(v: nat)
    ensures Signed(true, Some(v)) == Some(-(v as int))
  {
  }

  lemma ParsePositive(n: nat)
    ensures ParseInt("+" + Decimal(n)) == if |Decimal(n)| <= MaxStrDigits then Some(n) else None
  {
    var d := Decimal(n);
    SignedBody(d);
    ParseIsStripped("+" + d);
  }

  /** A sign followed by digits parses as the signed value of the digits when
      they are within the digit limit, and is refused otherwise. */
  lemma SignedBody(d: string)
    requires |d| > 0 && AllDigits(d)
    ensures ParseStripped("-" + d) == if |d| <= MaxStrDigits then Signed(true, Some(ValueOf(d))) else None
    ensures ParseStripped("+" + d) == if |d| <= MaxStrDigits then Some(ValueOf(d)) else None
  {
    DigitsAreBody(d);
    var m := "-" + d;
    var p := "+" + d;
    assert m[1..] == d && p[1..] == d;
    assert |m| > 0 && m[0] == '-';
    assert |p| > 0 && p[0] == '+';
  }

  /** A numeral ending in a digit and starting with a digit or sign has no
      surrounding whitespace to strip. */
  lemma ParseIsStripped(m: string)
    requires |m| > 0 && IsDigit(m[|m| - 1])
    requires IsDigit(m[0]) || m[0] == '-' || m[0] == '+'
    requires forall k :: 0 < k < |m| ==> IsDigit(m[k])
    ensures ParseInt(m) == ParseStripped(m)
  {
    StripUntouched(m);
  }

  /** Blank text is not a number, whitespace that `int()` skips around a
      numeral is ignored, and a separator anywhere is rejected. */
  lemma ParseIntWhitespace(a: string, text: string, b: string)
    requires AllIntSpace(a) && AllIntSpace(b)
    ensures ParseInt(a + text + b) == ParseInt(text)
    ensures AllSpace(text) ==> ParseInt(text) == None
    ensures forall c :: IsSeparator(c) ==> ParseInt(a + [c] + text + b) == None
  {
    SeparatorsOfPadded(a, text, b);
    StripIgnoresPadding(a, text, b);
    forall c | IsSeparator(c)
      ensures ParseInt(a + [c] + text + b) == None
    {
      var s := a + [c] + text + b;
      assert s[|a|] == c;
    }
  }

  /** Padding without separators adds none. */
  lemma SeparatorsOfPadded(a: string, text: string, b: string)
    requires AllIntSpace(a) && AllIntSpace(b)
    ensures HasSeparator(a + text + b) <==> HasSeparator(text)
  {
    var s := a + text + b;
    if HasSeparator(s) {
      var k :| 0 <= k < |s| && IsSeparator(s[k]);
      if |a| <= k < |a| + |text| {
        assert s[k] == text[k - |a|];
      }
    }
    if HasSeparator(text) {
      var k :| 0 <= k < |text| && IsSeparator(text[k]);
      assert s[|a| + k] == text[k];
    }
  }

  /** What `int()` accepts: every text it reads is whitespace it skips, an
      optional sign, a digit body within the digit limit, and whitespace
      again, and the value is the body's, negated after a minus sign. So
      text with any other character ("5000ms", "5.0", "1e3") is refused. */
  lemma ParseIntAccepts(t: string) returns (a: string, sign: string, body: string, b: string)
    requires ParseInt(t).Some?
    ensures t == a + sign + body + b
    ensures AllIntSpace(a) && AllIntSpace(b)
    ensures sign == "" || sign == "-" || sign == "+"
    ensures IsDigitBody(body) && |DropUnderscores(body)| <= MaxStrDigits
    ensures ParseInt(t).value == if sign == "-" then -(BodyValue(body) as int) else BodyValue(body) as int
  {
    var r := Strip(t);
    a, b := Unpad(t, r);
    sign, body := StrippedAccepts(r);
    Regroup(a, r, sign, body, b);
  }

  lemma Regroup(a: string, r: string, x: string, y: string, b: string)
    requires r == x + y
    ensures a + r + b == a + x + y + b
  {
  }

  /** The other direction: `int()` reads any text of that shape, leading
      zeros and underscores included ("007", " +5_000\n"), as the body's
      value with its sign. */
  lemma ParseIntReads(a: string, sign: string, body: string, b: string)
    requires AllIntSpace(a) && AllIntSpace(b)
    requires sign == "" || sign == "-" || sign == "+"
    requires IsDigitBody(body) && |DropUnderscores(body)| <= MaxStrDigits
    ensures ParseInt(a + sign + body + b)
         == Some(if sign == "-" then -(BodyValue(body) as int) else BodyValue(body) as int)
  {
    var m := sign + body;
    Regroup(a, m, sign, body, b);
    CoreUntouched(sign, body);
    CoreNoSeparator(sign, body);
    PaddedCore(a, m, b);
    SignedStripped(sign, body);
  }

  /** `int()` strips padding it skips from a core that is already stripped. */
  lemma PaddedCore(a: string, m: string, b: string)
    requires AllIntSpace(a) && AllIntSpace(b)
    requires !HasSeparator(m) && Strip(m) == m
    ensures ParseInt(a + m + b) == ParseStripped(m)
  {
    SeparatorsOfPadded(a, m, b);
    StripIgnoresPadding(a, m, b);
  }

  lemma CoreNoSeparator(sign: string, body: string)
    requires sign == "" || sign == "-" || sign == "+"
    requires IsDigitBody(body)
    ensures !HasSeparator(sign + body)
  {
    var m := sign + body;
    forall k | 0 <= k < |m|
      ensures !IsSeparator(m[k])
    {
      PartsChar("", sign, body, "", k);
      assert "" + sign + body + "" == m;
    }
  }

  /** A sign and a digit body have no whitespace to strip. */
  lemma CoreUntouched(sign: string, body: string)
    requires sign == "" || sign == "-" || sign == "+"
    requires IsDigitBody(body)
    ensures Strip(sign + body) == sign + body
  {
    var m := sign + body;
    var last := |body| - 1;
    assert IsDigit(body[last]);
    assert m[|m| - 1] == body[last];
    assert m[0] == if sign == "" then body[0] else sign[0];
    StripUntouched(m);
  }

  /** A sign and a digit body within the limit, as `int()` reads them once
      the padding is gone. */
  lemma SignedStripped(sign: string, body: string)
    requires sign == "" || sign == "-" || sign == "+"
    requires IsDigitBody(body) && |DropUnderscores(body)| <= MaxStrDigits
    ensures ParseStripped(sign + body)
         == Some(if sign == "-" then -(BodyValue(body) as int) else BodyValue(body) as int)
  {
    if sign == "" {
      assert sign + body == body;
      StrippedUnsigned(body);
    } else if sign == "-" {
      StrippedSigned(body);
    } else {
      StrippedSigned(body);
    }
  }

  lemma StrippedUnsigned(body: string)
    requires IsDigitBody(body) && |DropUnderscores(body)| <= MaxStrDigits
    ensures ParseStripped(body) == Some(BodyValue(body))
  {
    assert IsDigit(body[0]);
  }

  lemma StrippedSigned(body: string)
    requires IsDigitBody(body) && |DropUnderscores(body)| <= MaxStrDigits
    ensures ParseStripped("-" + body) == Some(-(BodyValue(body) as int))
    ensures ParseStripped("+" + body) == Some(BodyValue(body))
  {
    var m := "-" + body;
    var p := "+" + body;
    assert m[0] == '-' && m[1..] == body;
    assert p[0] == '+' && p[1..] == body;
  }

  /** Separator-free text around its stripped core is padded with whitespace
      that `int()` skips. */
  lemma Unpad(t: string, r: string) returns (a: string, b: string)
    requires !HasSeparator(t) && Surrounds(t, r)
    ensures t == a + r + b
    ensures AllIntSpace(a) && AllIntSpace(b)
  {
    var i, j := Around(t, r);
    a := t[..i];
    b := t[j..];
    NoSeparatorIn(t, a, 0);
    NoSeparatorIn(t, b, j);
  }

  /** Where the stripped core sits in the text. */
  lemma Around(t: string, r: string) returns (i: nat, j: nat)
    requires Surrounds(t, r)
    ensures i <= j <= |t| && j == i + |r|
    ensures t == t[..i] + r + t[j..]
    ensures AllSpace(t[..i]) && AllSpace(t[j..])
  {
    i :| 0 <= i <= |t| - |r| && r == t[i..i + |r|] && AllSpace(t[..i]) && AllSpace(t[i + |r|..]);
    j := i + |r|;
    SliceAround(t, i, j);
  }

  lemma SliceAround(t: string, i: nat, j: nat)
    requires i <= j <= |t|
    ensures t == t[..i] + t[i..j] + t[j..]
  {
    assert t[..i] + t[i..j] == t[..j];
  }

  /** A stretch of separator-free text holds no separator. */
  lemma NoSeparatorIn(t: string, w: string, i: nat)
    requires !HasSeparator(t) && AllSpace(w)
    requires i + |w| <= |t| && w == t[i..i + |w|]
    ensures AllIntSpace(w)
  {
    forall k | 0 <= k < |w|
      ensures IntSpace(w[k])
    {
      assert w[k] == t[i + k];
    }
  }

  /** What `int()` accepts once the whitespace is stripped: an optional sign
      and a digit body within the limit. */
  lemma StrippedAccepts(r: string) returns (sign: string, body: string)
    requires ParseStripped(r).Some?
    ensures r == sign + body
    ensures sign == "" || sign == "-" || sign == "+"
    ensures IsDigitBody(body) && |DropUnderscores(body)| <= MaxStrDigits
    ensures ParseStripped(r).value == if sign == "-" then -(BodyValue(body) as int) else BodyValue(body) as int
  {
    if |r| > 0 && (r[0] == '-' || r[0] == '+') {
      sign := [r[0]];
      body := r[1..];
    } else {
      sign := "";
      body := r;
    }
    assert r == sign + body;
  }

  /** Every character of text `int()` reads is whitespace it skips, a digit,
      a sign or an underscore; so a character that is none of these
      ("5000ms", "5.5", "1e3") makes the text unreadable. */
  lemma ParseIntRejects(t: string, k: nat)
    requires k < |t|
    ensures ParseInt(t).Some? ==> NumeralChar(t[k])
  {
    if ParseInt(t).Some? {
      var a, sign, body, b := ParseIntAccepts(t);
      PartsChar(a, sign, body, b, k);
    }
  }

  /** The characters that may appear in text `int()` reads. */
  predicate NumeralChar(c: char) {
    IntSpace(c) || IsDigit(c) || c == '-' || c == '+' || c == '_'
  }

  lemma PartsChar(a: string, sign: string, body: string, b: string, k: nat)
    requires AllIntSpace(a) && AllIntSpace(b)
    requires sign == "" || sign == "-" || sign == "+"
    requires IsDigitBody(body)
    requires k < |a + sign + body + b|
    ensures NumeralChar((a + sign + body + b)[k])
  {
    var t := a + sign + body + b;
    if k < |a| {
      assert t[k] == a[k];
    } else if k < |a| + |sign| {
      assert t[k] == sign[k - |a|];
    } else if k < |a| + |sign| + |body| {
      assert t[k] == body[k - |a| - |sign|];
    } else {
      assert t[k] == b[k - |a| - |sign| - |body|];
    }
  }
}

=== FILE: text.dfy ===
/** The parts of Python's `str` behaviour that the two applications rely on:
    substring search (`sep in s`, `str.find`), `str.split(sep)` and its inverse
    `sep.join(parts)`, `str.strip()` and `str.lower()`. */
module Text {
  import opened Wrappers

  /** Python's `str.isspace` for one character: the ASCII separators and
      control whitespace, plus the Unicode spaces and line/paragraph separators. */
  predicate IsSpace(c: char) {
    || c == ' '
    || ('\t' <= c <= '\r')
    || ('\U{1C}' <= c <= '\U{1F}')
    || c == '\U{85}'
    || c == '\U{A0}'
    || c == '\U{1680}'
    || ('\U{2000}' <= c <= '\U{200A}')
    || c == '\U{2028}'
    || c == '\U{2029}'
    || c == '\U{202F}'
    || c == '\U{205F}'
    || c == '\U{3000}'
  }

  /** Every character of `s` is whitespace (vacuously true of the empty string). */
  predicate AllSpace(s: string) {
    forall k :: 0 <= k < |s| ==> IsSpace(s[k])
  }

  /** `sep` occurs in `s` starting at index `i`. */
  predicate OccursAt(s: string, sep: string, i: int) {
    0 <= i && i + |sep| <= |s| && s[i..i + |sep|] == sep
  }

  /** Python's `sep in s`. */
  predicate Contains(s: string, sep: string) {
    exists i :: 0 <= i <= |s| - |sep| && OccursAt(s, sep, i)
  }

  /** An occurrence in `s[1..]` is an occurrence in `s`, one position later, and back. */
  lemma OccursShift(s: string, sep: string)
    requires |s| > 0
    ensures forall i :: OccursAt(s[1..], sep, i) ==> OccursAt(s, sep, i + 1)
    ensures forall i :: 1 <= i && OccursAt(s, sep, i) ==> OccursAt(s[1..], sep, i - 1)
  {
    forall i | OccursAt(s[1..], sep, i)
      ensures OccursAt(s, sep, i + 1)
    {
      assert s[1..][i..i + |sep|] == s[i + 1..i + 1 + |sep|];
    }
    forall i | 1 <= i && OccursAt(s, sep, i)
      ensures OccursAt(s[1..], sep, i - 1)
    {
      assert s[1..][i - 1..i - 1 + |sep|] == s[i..i + |sep|];
    }
  }

  /** An occurrence inside a prefix of `s` is an occurrence in `s`. */
  lemma OccursInPrefix(s: string, sep: string, n: nat)
    requires n <= |s|
    ensures forall j :: OccursAt(s[..n], sep, j) ==> OccursAt(s, sep, j)
  {
    forall j | OccursAt(s[..n], sep, j)
      ensures OccursAt(s, sep, j)
    {
      assert s[..n][j..j + |sep|] == s[j..j + |sep|];
    }
  }

  /** Python's `s.find(sep)` for a non-empty `sep`: the index of the first
      occurrence, or `None` where Python returns -1. */
  function Find(s: string, sep: string): (r: Option<nat>)
    requires |sep| > 0
    ensures r.Some? ==> OccursAt(s, sep, r.value)
    ensures r.Some? ==> forall j :: 0 <= j < r.value ==> !OccursAt(s, sep, j)
    ensures r.None? <==> !Contains(s, sep)
    decreases |s|
  {
    if |s| < |sep| then None
    else if s[..|sep|] == sep then Some(0)
    else
      OccursShift(s, sep);
      match Find(s[1..], sep)
      case None => None
      case Some(i) => Some(i + 1)
  }

  /** Python's `sep.join(parts)`. */
  function Join(parts: seq<string>, sep: string): string
    requires |parts| >= 1
  {
    if |parts| == 1 then parts[0] else parts[0] + sep + Join(parts[1..], sep)
  }

  /** Python's `s.split(sep)` for a non-empty `sep`: the pieces between
      successive occurrences, scanning left to right. Empty pieces are kept,
      so `"".split(sep) == [""]` and a trailing separator yields a final "". */
  function Split(s: string, sep: string): (parts: seq<string>)
    requires |sep| > 0
    ensures |parts| >= 1
    ensures |parts| == 1 <==> !Contains(s, sep)
    ensures forall k :: 0 <= k < |parts| ==> !Contains(parts[k], sep)
    ensures Join(parts, sep) == s
    ensures |parts| > 1 ==> Find(s, sep) == Some(|parts[0]|)
    decreases |s|
  {
    match Find(s, sep)
    case None => [s]
    case Some(i) =>
      OccursInPrefix(s, sep, i);
      assert s[..i] + sep + s[i + |sep|..] == s by {
        assert s == s[..i] + s[i..i + |sep|] + s[i + |sep|..];
      }
      [s[..i]] + Split(s[i + |sep|..], sep)
  }

  /** Removes leading whitespace (Python's `str.lstrip()`). */
  function TrimStart(s: string): (r: string)
    ensures |r| <= |s| && r == s[|s| - |r|..]
    ensures AllSpace(s[..|s| - |r|])
    ensures |r| > 0 ==> !IsSpace(r[0])
    decreases |s|
  {
    if |s| > 0 && IsSpace(s[0]) then TrimStart(s[1..]) else s
  }

  /** Removes trailing whitespace (Python's `str.rstrip()`). */
  function TrimEnd(s: string): (r: string)
    ensures |r| <= |s| && r == s[..|r|]
    ensures AllSpace(s[|r|..])
    ensures |r| > 0 ==> !IsSpace(r[|r| - 1])
    decreases |s|
  {
    if |s| > 0 && IsSpace(s[|s| - 1]) then TrimEnd(s[..|s| - 1]) else s
  }

  /** `s` is `r` with whitespace, and nothing else, added on either side. */
  predicate Surrounds(s: string, r: string) {
    exists i :: 0 <= i <= |s| - |r| && r == s[i..i + |r|] && AllSpace(s[..i]) && AllSpace(s[i + |r|..])
  }

  /** Python's `str.strip()` with no argument: the result is the slice of `s`
      left after removing whitespace at both ends, so it is empty exactly when
      `s` is all whitespace, and otherwise starts and ends with a non-space. */
  function Strip(s: string): (r: string)
    ensures r == "" <==> AllSpace(s)
    ensures |r| > 0 ==> !IsSpace(r[0]) && !IsSpace(r[|r| - 1])
    ensures |r| <= |s|
    ensures Surrounds(s, r)
  {
    var t := TrimStart(s);
    var r := TrimEnd(t);
    TrimmedSlice(s, t, r);
    r
  }

  /** Trimming both ends leaves a middle slice, with whitespace on either
      side, that is empty exactly when the whole string is whitespace. */
  lemma TrimmedSlice(s: string, t: string, r: string)
    requires |t| <= |s| && t == s[|s| - |t|..] && AllSpace(s[..|s| - |t|])
    requires |t| > 0 ==> !IsSpace(t[0])
    requires |r| <= |t| && r == t[..|r|] && AllSpace(t[|r|..])
    requires |r| > 0 ==> !IsSpace(r[|r| - 1])
    ensures r == "" <==> AllSpace(s)
    ensures |r| > 0 ==> !IsSpace(r[0]) && !IsSpace(r[|r| - 1])
    ensures |r| <= |s|
    ensures Surrounds(s, r)
  {
    var i := |s| - |t|;
    assert t[..|r|] == s[i..i + |r|];
    assert t[|r|..] == s[i + |r|..];
    if r == "" {
      assert s == s[..i] + t;
      AllSpaceAppend(s[..i], t);
    } else {
      assert r[0] == t[0];
      assert !AllSpace(s) by { assert s[i] == t[0]; }
    }
    assert 0 <= i <= |s| - |r| && r == s[i..i + |r|] && AllSpace(s[..i]) && AllSpace(s[i + |r|..]);
  }

  /** Python's `str.lower()` on ASCII letters; every other character is kept. */
  function LowerChar(c: char): char {
    if 'A' <= c <= 'Z' then (c as int + 32) as char else c
  }

  /** Python's `str.lower()`, character by character. */
  function Lower(s: string): (r: string)
    ensures |r| == |s|
    ensures forall k :: 0 <= k < |s| ==> r[k] == LowerChar(s[k])
  {
    seq(|s|, k requires 0 <= k < |s| => LowerChar(s[k]))
  }

  /** No character of `s` is an upper-case ASCII letter. */
  predicate IsLower(s: string) {
    forall k :: 0 <= k < |s| ==> !('A' <= s[k] <= 'Z')
  }

  /** Lower-casing yields a lower-case string and is idempotent. */
  lemma LowerIsLower(s: string)
    ensures IsLower(Lower(s))
    ensures Lower(Lower(s)) == Lower(s)
  {
  }

  /** Stripping discards exactly the surrounding whitespace: text padded with
      whitespace on either side strips to the same result as the text itself. */
  lemma {:induction false} StripIgnoresPadding(a: string, s: string, b: string)
    requires AllSpace(a) && AllSpace(b)
    ensures Strip(a + s + b) == Strip(s)
  {
    assert a + s + b == a + (s + b);
    TrimStartPadding(a, s + b);
    TrimBothAppend(s, b);
  }

  lemma TrimBothAppend(s: string, b: string)
    requires AllSpace(b)
    ensures TrimEnd(TrimStart(s + b)) == TrimEnd(TrimStart(s))
  {
    TrimStartAppend(s, b);
    var t := TrimStart(s);
    if t == "" {
      assert AllSpace(s) by { assert s == s[..|s| - |t|]; }
      AllSpaceAppend(s, b);
      TrimStartAllSpace(s + b);
    } else {
      TrimEndPadding(t, b);
    }
  }

  lemma AllSpaceAppend(s: string, b: string)
    requires AllSpace(s) && AllSpace(b)
    ensures AllSpace(s + b)
  {
  }

  lemma {:induction false} TrimStartAllSpace(s: string)
    requires AllSpace(s)
    ensures TrimStart(s) == ""
    decreases |s|
  {
    if |s| > 0 {
      TrimStartAllSpace(s[1..]);
    }
  }

  lemma {:induction false} TrimStartPadding(a: string, s: string)
    requires AllSpace(a)
    ensures TrimStart(a + s) == TrimStart(s)
    decreases |a|
  {
    if |a| > 0 {
      assert (a + s)[1..] == a[1..] + s;
      TrimStartPadding(a[1..], s);
    } else {
      assert a + s == s;
    }
  }

  /** When `s` has a non-space character, the left trim of `s + b` keeps all of `b`. */
  lemma {:induction false} TrimStartAppend(s: string, b: string)
    ensures TrimStart(s) != "" ==> TrimStart(s + b) == TrimStart(s) + b
    decreases |s|
  {
    if |s| > 0 && IsSpace(s[0]) {
      assert (s + b)[1..] == s[1..] + b;
      TrimStartAppend(s[1..], b);
    }
  }

  lemma {:induction false} TrimEndPadding(t: string, b: string)
    requires AllSpace(b)
    ensures TrimEnd(t + b) == TrimEnd(t)
    decreases |b|
  {
    if |b| > 0 {
      var n := |t + b|;
      assert (t + b)[..n - 1] == t + b[..|b| - 1];
      TrimEndPadding(t, b[..|b| - 1]);
    } else {
      assert t + b == t;
    }
  }

  /** A separator that does not contain character `c` cannot occur across `c`:
      it occurs in `a + [c] + b` exactly when it occurs in `a` or in `b`. */
  lemma ContainsAroundChar(a: string, c: char, b: string, sep: string)
    requires |sep| > 0 && c !in sep
    ensures Contains(a + [c] + b, sep) <==> Contains(a, sep) || Contains(b, sep)
  {
    var s := a + [c] + b;
    var x := a + [c];
    assert s == x + b;
    if Contains(s, sep) {
      var p :| 0 <= p <= |s| - |sep| && OccursAt(s, sep, p);
      if p + |sep| <= |a| {
        OccursInLeft(x, b, sep, p);
        OccursInLeft(a, [c], sep, p);
      } else if p > |a| {
        OccursInRight(x, b, sep, p);
      } else {
        WindowChar(s, sep, p, |a|);
        assert false;
      }
    }
    if Contains(a, sep) {
      var p :| 0 <= p <= |a| - |sep| && OccursAt(a, sep, p);
      OccursBefore(a, [c] + b, sep, p);
      assert a + ([c] + b) == s;
    }
    if Contains(b, sep) {
      var p :| 0 <= p <= |b| - |sep| && OccursAt(b, sep, p);
      OccursAfter(x, b, sep, p);
    }
  }

  /** An occurrence inside the left part of `x + y` is an occurrence in `x`. */
  lemma OccursInLeft(x: string, y: string, sep: string, p: int)
    requires OccursAt(x + y, sep, p) && p + |sep| <= |x|
    ensures OccursAt(x, sep, p)
  {
    assert (x + y)[p..p + |sep|] == x[p..p + |sep|];
  }

  /** An occurrence inside the right part of `x + y` is an occurrence in `y`. */
  lemma OccursInRight(x: string, y: string, sep: string, p: int)
    requires OccursAt(x + y, sep, p) && p >= |x|
    ensures OccursAt(y, sep, p - |x|)
  {
    assert (x + y)[p..p + |sep|] == y[p - |x|..p - |x| + |sep|];
  }

  /** An occurrence in `x` stays one in `x + y`. */
  lemma OccursBefore(x: string, y: string, sep: string, p: int)
    requires OccursAt(x, sep, p)
    ensures OccursAt(x + y, sep, p)
  {
    assert (x + y)[p..p + |sep|] == x[p..p + |sep|];
  }

  /** An occurrence in `y` is one in `x + y`, shifted by `|x|`. */
  lemma OccursAfter(x: string, y: string, sep: string, p: int)
    requires OccursAt(y, sep, p)
    ensures OccursAt(x + y, sep, p + |x|)
  {
    assert (x + y)[p + |x|..p + |x| + |sep|] == y[p..p + |sep|];
  }

  /** When `sep` is not in `p` and `c` is not in `sep`, the first occurrence of
      `sep` in `p + [c] + sep + rest` is the one placed right after `c`. */
  lemma FindAfterChar(p: string, c: char, sep: string, rest: string)
    requires |sep| > 0 && c !in sep && !Contains(p, sep)
    ensures Find(p + [c] + sep + rest, sep) == Some(|p| + 1)
  {
    var s := p + [c] + sep + rest;
    var q := |p| + 1;
    assert s[q..q + |sep|] == sep;
    assert OccursAt(s, sep, q);
    var r := Find(s, sep);
    assert r.Some?;
    if r.value < q {
      var j := r.value;
      if j + |sep| <= |p| {
        assert s[j..j + |sep|] == p[j..j + |sep|];
        assert OccursAt(p, sep, j);
        assert false;
      } else {
        WindowChar(s, sep, j, |p|);
        assert false;
      }
    }
  }

  /** With `sep` absent from `p` and `rest` and not containing `c`, the
      separator placed right after `c` splits `p + [c] + sep + rest` in two. */
  lemma SplitAfterChar(p: string, c: char, sep: string, rest: string)
    requires |sep| > 0 && c !in sep && !Contains(p, sep) && !Contains(rest, sep)
    ensures Split(p + [c] + sep + rest, sep) == [p + [c], rest]
  {
    var s := p + [c] + sep + rest;
    FindAfterChar(p, c, sep, rest);
    assert s[..|p| + 1] == p + [c];
    assert s[|p| + 1 + |sep|..] == rest;
    assert Split(rest, sep) == [rest];
  }

  /** Inside an occurrence of `sep` at `p`, character `k` of `s` is character `k - p` of `sep`. */
  lemma WindowChar(s: string, sep: string, p: int, k: int)
    requires OccursAt(s, sep, p) && p <= k < p + |sep|
    ensures s[k] == sep[k - p]
  {
    assert s[p..p + |sep|][k - p] == s[k];
  }

  /** The empty string contains no non-empty separator. */
  lemma EmptyContainsNothing(sep: string)
    requires |sep| > 0
    ensures !Contains("", sep)
  {
  }

  /** Stripping leaves alone a string that neither starts nor ends with whitespace. */
  lemma StripUntouched(s: string)
    requires |s| > 0 && !IsSpace(s[0]) && !IsSpace(s[|s| - 1])
    ensures Strip(s) == s
  {
  }

  /** A one-character separator occurs exactly where the character does. */
  lemma ContainsChar(s: string, c: char)
    ensures Contains(s, [c]) <==> c in s
  {
    if c in s {
      var i :| 0 <= i < |s| && s[i] == c;
      assert s[i..i + 1] == [c];
      assert OccursAt(s, [c], i);
    }
    if Contains(s, [c]) {
      var i :| 0 <= i <= |s| - 1 && OccursAt(s, [c], i);
      assert s[i] == s[i..i + 1][0];
    }
  }

  /** Splitting on a character splits off everything before its first
      occurrence. */
  lemma SplitAtChar(p: string, c: char, rest: string)
    requires c !in p
    ensures Split(p + [c] + rest, [c]) == [p] + Split(rest, [c])
  {
    var s := p + [c] + rest;
    ContainsChar(p, c);
    assert OccursAt(s, [c], |p|) by { assert s[|p|..|p| + 1] == [c]; }
    var r := Find(s, [c]);
    assert r.Some?;
    if r.value < |p| {
      WindowChar(s, [c], r.value, r.value);
      assert false;
    }
    assert s[|p| + 1..] == rest;
  }

  /** Joining lines that do not contain `c` with `c` and splitting the result
      at `c` gives the lines back: `Split` inverts `Join`. */
  lemma {:induction false} SplitJoin(lines: seq<string>, c: char)
    requires |lines| >= 1
    requires forall k :: 0 <= k < |lines| ==> c !in lines[k]
    ensures Split(Join(lines, [c]), [c]) == lines
    decreases |lines|
  {
    if |lines| == 1 {
      ContainsChar(lines[0], c);
    } else {
      var rest := lines[1..];
      SplitJoin(rest, c);
      assert Join(lines, [c]) == lines[0] + [c] + Join(rest, [c]);
      SplitAtChar(lines[0], c, Join(rest, [c]));
      assert lines == [lines[0]] + rest;
    }
  }
}

=== FILE: translation.dfy ===
/** Translating the transcript of the video application: the guards of
    `translate_text`, the language-code lookup of `_perform_translation`, and
    how the two result callbacks update the translation pane. The translation
    service is a parameter: its language table (or the failure fetching it)
    and a function from text and language code to an outcome. */
module Translation {
  import opened Wrappers
  import opened Text

  /** The entry the language menu shows before a language is chosen. */
  const NoLanguage := "Select language"

  /** A translation to run: the stripped transcript and the chosen language. */
  datatype Request = Request(text: string, language: string)

  /** `translate_text`: nothing happens while no language is chosen or while
      the result pane holds only whitespace; otherwise the stripped pane text
      is translated into the chosen language. */
  function TranslateRequest(selected: string, pane: string): (r: Option<Request>)
    ensures r.None? <==> selected == NoLanguage || AllSpace(pane)
    ensures r.Some? ==> r.value.language == selected
    ensures r.Some? ==> r.value.text == Strip(pane)
    ensures r.Some? ==> r.value.text != "" && Strip(r.value.text) == r.value.text
  {
    if selected == NoLanguage then None
    else
      var text := Strip(pane);
      if text == "" then None
      else
        StripUntouched(text);
        Some(Request(text, selected))
  }

  /** Whitespace around the transcript (the Text widget adds a final newline)
      changes nothing about the request. */
  lemma RequestIgnoresPadding(selected: string, a: string, pane: string, b: string)
    requires AllSpace(a) && AllSpace(b)
    ensures TranslateRequest(selected, a + pane + b) == TranslateRequest(selected, pane)
  {
    StripIgnoresPadding(a, pane, b);
  }

  /** The code passed to the translator: the table's entry for the
      lower-cased language name, or the lower-cased name itself. */
  function LanguageCode(table: map<string, string>, name: string): (code: string)
    ensures Lower(name) in table ==> code == table[Lower(name)]
    ensures Lower(name) !in table ==> code == Lower(name)
  {
    var key := Lower(name);
    if key in table then table[key] else key
  }

  /** The lookup ignores the case of the name, and a name missing from the
      table falls back to a lower-case code of the same length. */
  lemma LanguageCodeCase(table: map<string, string>, name: string)
    ensures LanguageCode(table, name) == LanguageCode(table, Lower(name))
    ensures Lower(name) !in table ==>
              IsLower(LanguageCode(table, name)) && |LanguageCode(table, name)| == |name|
  {
    LowerIsLower(name);
  }

  /** What a translation service does with one request; the live
      application's translator shares it. */
  datatype Outcome = Translated(text: string) | TranslateFailed(detail: string)

  /** The translation side of the window: the last translation
      (`translated_text`), the translation pane's text, whether the Translate
      button is enabled, and the request a background thread is running. */
  datatype View = View(translated: string, pane: string, enabled: bool, running: Option<Request>)

  /** The button is disabled exactly while a translation runs. */
  predicate Idle(v: View)
  {
    v.enabled <==> v.running.None?
  }

  /** A click on Translate. A disabled button delivers no click; an enabled
      one starts the request that `translate_text` builds, if any, and
      disables itself until the translation finishes. */
  function Click(v: View, selected: string, resultPane: string): (w: View)
    ensures !v.enabled ==> w == v
    ensures v.enabled && TranslateRequest(selected, resultPane).None? ==> w == v
    ensures v.enabled && TranslateRequest(selected, resultPane).Some? ==>
              !w.enabled && w.running == TranslateRequest(selected, resultPane)
              && w.translated == v.translated && w.pane == v.pane
  {
    if !v.enabled then v
    else
      match TranslateRequest(selected, resultPane)
      case None => v
      case Some(req) => v.(enabled := false, running := Some(req))
  }

  /** The background translation and the callback it schedules. On success
      the translation replaces both `translated_text` and the pane; on failure
      (of the language table or of the translation) an error line is appended
      to the pane and the last translation is kept. Either way the button is
      enabled again. */
  function Finish(v: View, languages: Result<map<string, string>, string>,
                  translate: (string, string) -> Outcome): (w: View)
    requires v.running.Some?
    ensures w.enabled && w.running.None?
    ensures languages.Success? &&
            translate(v.running.value.text, LanguageCode(languages.value, v.running.value.language)).Translated? ==>
              w.translated == w.pane
                == translate(v.running.value.text, LanguageCode(languages.value, v.running.value.language)).text
    ensures (languages.Failure? ||
             translate(v.running.value.text, LanguageCode(languages.value, v.running.value.language)).TranslateFailed?) ==>
              w.translated == v.translated && |w.pane| > |v.pane| && w.pane[..|v.pane|] == v.pane
    ensures languages.Failure? ==> w.pane == v.pane + "Error during translation: " + languages.error
    ensures languages.Success? &&
            translate(v.running.value.text, LanguageCode(languages.value, v.running.value.language)).TranslateFailed? ==>
              w.pane == v.pane + "Error during translation: "
                + translate(v.running.value.text, LanguageCode(languages.value, v.running.value.language)).detail
  {
    var req := v.running.value;
    match languages
    case Failure(e) => ShowError(v, e)
    case Success(table) =>
      match translate(req.text, LanguageCode(table, req.language))
      case Translated(t) => View(t, t, true, None)
      case TranslateFailed(e) => ShowError(v, e)
  }

  /** `_handle_translation_error`: the error is appended to the pane. */
  function ShowError(v: View, e: string): View
  {
    v.(pane := v.pane + "Error during translation: " + e, enabled := true, running := None)
  }

  /** Starting a new transcription clears the last translation and its pane. */
  function ClearTranslation(v: View): (w: View)
    ensures w.translated == "" && w.pane == ""
    ensures w.enabled == v.enabled && w.running == v.running
  {
    v.(translated := "", pane := "")
  }

  /** Only one translation runs at a time: clicking and finishing keep the
      button disabled exactly while a request runs, and a click during a
      translation changes nothing. */
  lemma OneTranslationAtATime(v: View, selected: string, resultPane: string,
                              languages: Result<map<string, string>, string>,
                              translate: (string, string) -> Outcome)
    requires Idle(v)
    ensures Idle(Click(v, selected, resultPane))
    ensures v.running.Some? ==> Click(v, selected, resultPane) == v
    ensures v.running.Some? ==> Idle(Finish(v, languages, translate))
  {
  }
}

=== FILE: wrappers.dfy ===
/** Failure-carrying result types shared by the modules of this model. */
module Wrappers {

  /** A value that may be absent, as Python's `None` or a missing dictionary entry. */
  datatype Option<+T> = None | Some(value: T)

  /** The outcome of an operation that either returns a value or raises an exception. */
  datatype Result<+R, +E> = Success(value: R) | Failure(error: E)
}
